=== FILE: README.md ===
# Splash core: link, objects, controllers, filters, warps, calibrator

A Dafny model of the core of Splash, a multi-process video-mapping engine. Its
processes talk over an inter-process *link*:

- **Control messages.** A control message `(target, attribute, values)` is
  flattened into a run of transport frames. `Value` is recursive: int, float,
  string or a nested sequence. Every frame carries a "more parts follow" flag.
  The receiver rebuilds the message from the frames.
- **Serialized buffers.** Buffers are sent without copying. Each one holds a
  per-buffer lease from the moment the transport takes it until the transport
  releases it.

Around the link sit the pieces of the object graph with checkable logic:

- the attribute store every object inherits;
- the drawable `Object` (texture and geometry lists, blending maps, shader fill
  choice, attribute setters);
- the `ControllerObject` helpers that query and update the object tree of all
  roots;
- the image `Filter` (clamped colour settings, colour curves, output size and
  timestamp, shader uniforms exposed as attributes);
- the `Warp` (input camera slot, Bezier patch attributes, control points);
- the bookkeeping of the `GeometricCalibrator`.

Every part is modelled sequentially with immutable states and pure functions.
Loops become methods wherever the loop itself is the point:

- `Object.ResetBlendingMap`
- `Object.WithTextureBlend`
- `Controller.GetObjectNames`
- `Filter.OutputTimestamp`
- `Warp.PickControlPoint`

Modules, one per source file, plus shared helpers:

- `Wrappers`: the `Option` type.
- `Seqs`: first-match removal, deduplication in first-seen order, filtering, and their lemmas.
- `ValueTypes`: `Value`, bytes, C strings, and the `Conversions` parameter that stands for `Value`'s own conversions.
- `Codec`: the frames of the control channel. Encoder, decoder, round trip, frame layout and the more-flag pattern.
- `Link`: endpoints, the buffer lease registry, and buffer and message delivery.
- `BaseObject`: the attribute store, callbacks and periodic tasks.
- `Object`: `src/object.cpp`.
- `Controller`: `src/controller/controller.cpp`.
- `Filter`: `src/graphics/filter.cpp`.
- `Warp`: `src/graphics/warp.cpp`.
- `GeometricCalibrator`: `src/controller/geometriccalibrator.cpp`.

Code that is not part of this model enters as parameters:

- `Value`'s conversions (`Conversions`); lemmas that need them to read a value of their own variant back unchanged assume `Exact`.
- the float payload layout (`FloatLayout`);
- the shader compiler (`compile`);
- the colour-balance formula (`balance`);
- the patch mesh's own attribute check (`meshAccepts`);
- the distance of a control point (`dist`).

Two behaviours of the link's code shape the model:

- **Buffer channel.** The code bounds the buffer channel only by the transport's
  high-water mark (src/link.cpp:64-65). Nothing is evicted, so no eviction is
  modelled.
- **Nested sequences.** The encoder clears the "more" flag on the last payload
  frame of *every* sequence, nested ones included. A nested sequence that is not
  the last element therefore ends the transport's multipart message early.
  `Codec.OneMessageIffNestsOnlyLast` states exactly when a message stays in one
  multipart message. The decoder ignores the flag, so the round trip still holds.

## Model

| member | source | states |
|---|---|---|
| Codec.Int32OfLe32 | src/link.cpp:131-133 | a 4-byte count or int frame reads back the number modulo 2^32, and exactly when it fits in a C int |
| Codec.TagRoundTrip | src/link.cpp:142-147 | the 4-byte tag frame of every element reads back as that element's type tag |
| Codec.DecodeScalarPayload | src/link.cpp:153-156 | a representable int, float or string payload frame decodes to the same value; a string is cut at its NUL |
| Codec.DecodeEncodeSeq | src/link.cpp:129-164 | decoding the frames of any representable sequence, empty and nested ones included, yields the same sequence and leaves the following frames untouched |
| Codec.DecodeEncodeElems | src/link.cpp:219-238 | the decoder reads exactly `count` elements and recurses on the sequence tag, rebuilding the encoded elements in order |
| Codec.DecodeElemStep | src/link.cpp:226-236 | one encoded element, a nested sequence or a scalar, is consumed whole and appended |
| Codec.DecodeEncodeMessage | src/link.cpp:111-164 | for a target, attribute and values with NUL-free strings, the receiver rebuilds the same triple from the sender's frames |
| Codec.DecodeScalar | src/link.cpp:229-235 | an int or float payload is read from its first four bytes and a string up to its first NUL; an unknown tag adds nothing; the value read has the type its tag names |
| Codec.DecodeSeq | src/link.cpp:217-240 | the decoder always makes progress: a successful read consumes at least one frame |
| Codec.DecodeElems | src/link.cpp:222-238 | the element loop never hands back more frames than it was given |
| Codec.UnknownTagSkips | src/link.cpp:224-237 | an element whose tag names no type has its payload frame consumed, counts as one element, and adds nothing |
| Codec.DecodeMessage | src/link.cpp:244-249 | a message read consumes at least the target, attribute and count frames |
| Codec.MessageLayout | src/link.cpp:118-125 | target and attribute frames are their bytes plus one trailing NUL, with more parts following; the values start with a 4-byte count frame |
| Codec.ElementLayout | src/link.cpp:142-161 | each element is a tag frame followed by a nested sequence or one payload frame; a string payload has length size+1 |
| Codec.EndsEncodeSeq | src/link.cpp:135-138 | the more flag is cleared exactly on the count frame of each empty sequence and on the payload frame of each sequence's last element |
| Codec.EndsEncodeElems | src/link.cpp:158-161 | within the elements, only nested sequences and the final payload frame clear the flag |
| Codec.SingleBreak | src/link.cpp:149-161 | a sequence's frames clear the flag exactly once iff nested sequences occur only in last position, at every depth |
| Codec.LastFrameEnds | src/link.cpp:135-161 | the last frame of every encoded sequence has the more flag cleared |
| Codec.OneMessageIffNestsOnlyLast | src/link.cpp:135-161 | the frames of a sequence form one multipart message iff nested sequences occur only last |
| Codec.EarlyNestedSequenceSplits | src/link.cpp:149-150 | a nested sequence in non-final position ends the multipart message before the last frame |
| Codec.DecodeEncodeStream | src/link.cpp:242-252 | the receive loop reading back-to-back messages recovers them all, in order |
| Link.EndpointsMatch | src/link.cpp:68-69 | endpoints are distinct per channel and injective in the process name; a connection to `peer` reaches the receivers bound by `self` iff peer == self |
| Link.SendBuffer | src/link.cpp:82-108 | sending fails and changes nothing when the lease is held; otherwise the lease is taken, the buffer appended to the in-flight list, at most [target+NUL][raw bytes] emitted, and true returned even if the transport fails |
| Link.FreeOlderBuffer | src/link.cpp:185-201 | only the first in-flight entry with that identity is released and erased, the rest keep their order; an unknown identity changes nothing |
| Link.SendBufferValid | src/link.cpp:86-92 | sending keeps the invariant: every in-flight buffer holds its lease, and no buffer is in flight twice |
| Link.FreeOlderBufferValid | src/link.cpp:199-200 | releasing keeps the invariant and leaves no buffer of that identity in flight |
| Link.SendThenFree | src/link.cpp:82-108 | a successful send followed by the transport's release restores the in-flight list and the leases |
| Link.ReceiveBuffer | src/link.cpp:286-290 | the receiver takes the target name frame and the raw data frame that follows |
| Link.SendBufferReceived | src/link.cpp:94-99 | what a send emits reaches the receiver as the same target name and a byte-for-byte copy of the buffer |
| Link.SendMessage | src/link.cpp:111-182 | sending a message always reports success and touches only the control channel |
| Link.SendMessagesFrames | src/link.cpp:115-166 | consecutive sends append their messages' frames in sending order |
| Link.MessagesDeliveredInOrder | src/link.cpp:242-252 | a receiver of a fresh link dispatches exactly the messages sent, in order |
| BaseObject.SetAttribute | src/core/base_object.h:71-77 | set reports true only when a registered attribute exists and its setter accepted the values; no other attribute, callback or task changes |
| BaseObject.GetAttribute | src/core/base_object.h:79-86 | get reports true only when the attribute exists; an unknown name yields no values |
| BaseObject.AddAttribute | src/core/base_object.h:168-186 | a newly added attribute exists and is registered, and every other attribute is untouched |
| BaseObject.SetThenGetRegistered | tests/check_base_object.cpp:65-81 | a registered attribute returns exactly what its setter stored from the last accepted values |
| BaseObject.SetThenGetUnregistered | tests/check_base_object.cpp:83-85 | values set on an unregistered name are kept: get returns false but yields them |
| BaseObject.SetLeavesOthers | src/core/base_object.h:71-86 | setting one attribute never changes what another attribute reads |
| BaseObject.StoreScenario | tests/check_base_object.cpp:56-89 | the test's sequence: registered int read back, unregistered name read back with false, never-set name false and empty |
| BaseObject.RegisterCallback | src/core/base_object.h:108-114 | a new callback gets a handle not in use |
| BaseObject.UnregisterCallback | src/core/base_object.h:116-121 | unregistering reports true only when the handle was registered, and removes it and nothing else |
| BaseObject.RegisterThenUnregister | src/core/base_object.h:116-121 | a fresh handle is removed once; a second removal fails |
| BaseObject.AddPeriodicTask | src/core/base_object.h:150-166 | tasks are keyed uniquely by name; adding under an existing name replaces it |
| BaseObject.RemovePeriodicTask | src/core/base_object.h:213-217 | removing a task removes only that name |
| BaseObject.AddThenRemovePeriodicTask | src/core/base_object.h:159-217 | adding a new name and removing it leaves the tasks as they were |
| Object.RemoveTexture | src/object.cpp:312-317 | the first equal texture is erased, once; an absent texture is a no-op |
| Object.RemoveTextureKeepsOrder | src/object.cpp:312-317 | the textures before the erased one stay in place and the rest keep their order |
| Object.RemoveGeometry | src/object.cpp:304-309 | the first equal geometry is erased, once; an absent geometry is a no-op |
| Object.RemoveGeometryKeepsOrder | src/object.cpp:304-309 | the geometries before the erased one stay in place and the rest keep their order |
| Object.SetBlendingMap | src/object.cpp:488-492 | the map is appended to both the blending maps and the textures |
| Object.ResetBlendingMap | src/object.cpp:320-337 | when no comparison reads past the end of the textures, and always when the last texture equals no blending map but the last, there are afterwards no blending maps, the parameters are marked updated, and exactly the textures that are not blending maps survive, in their original order |
| Object.CompareWithBlendMaps | src/object.cpp:324-331 | one inner pass erases the texture at the cursor when some blending map equals it and keeps everything before the cursor; it reports a read past the end exactly when an erase empties the cursor with maps left, which needs the last texture to equal a map other than the last |
| Object.WithTextureBlend | src/object.cpp:64-70 | blending is detected iff the first blending map is one of the textures |
| Object.TexDefines | src/object.cpp:106-116 | the window fill for n textures lists TEX_1 .. TEX_n |
| Object.Activate | src/object.cpp:54-121 | nothing is set up without a geometry; a window fill with 1 to 4 textures selects TEX_1..TEX_n, and any other count sets no fill; a texture fill selects the rectangle, vertex-blending or blending variants; other fills pass the colour |
| Object.DerivedNames | src/object.cpp:205-219 | for one object, the names derived for linked textures and geometries tell the linked objects apart, and a texture name is never a geometry name |
| Object.DerivedNamesAcrossObjects | src/object.cpp:205-221 | across objects the derived names can coincide: "a_b" linked to "c" and "a" linked to "b_c" derive the same texture and geometry names |
| Object.SetActivateVertexBlending | src/object.cpp:503-508 | accepted iff there is exactly one argument, which becomes the flag |
| Object.SetPosition | src/object.cpp:510-517 | fewer than 3 arguments returns false and changes nothing |
| Object.PositionRoundTrip | src/object.cpp:510-517 | an accepted position reads back its first three arguments |
| Object.SetScale | src/object.cpp:519-531 | no argument is refused; 1 or 2 arguments scale uniformly by the first; 3 or more scale per axis |
| Object.UniformScaleRoundTrip | src/object.cpp:519-531 | a single argument reads back on all three axes |
| Object.SetSideness | src/object.cpp:533-541 | at least one argument is required; the first becomes the sideness |
| Object.SetFill | src/object.cpp:543-550 | at least one argument is required; the first becomes the fill |
| Object.SetColor | src/object.cpp:552-557 | fewer than 4 arguments returns false and changes nothing; otherwise the first four become the colour |
| Object.ColorReachesShader | src/object.cpp:117-121 | a colour that was set reaches the shader of an object with a plain fill |
| Controller.GetObjectNames | src/controller/controller.cpp:70-87 | each object name of any root is listed once, and nothing else, in first-seen order across roots |
| Controller.LinksFoldSpec | src/controller/controller.cpp:161-181 | the fold gives every visited object an entry and adds its links deduplicated after those already gathered |
| Controller.GetObjectLinksSpec | src/controller/controller.cpp:155-216 | children (or, reversed, parents): every object of any root has an entry, possibly empty; each entry is the deduplicated union across roots in first-seen order |
| Controller.TypeFoldSpec | src/controller/controller.cpp:248-256 | recording types in turn, the last object of a name decides its type |
| Controller.WorldTypesOverride | src/controller/controller.cpp:240-273 | every object gets a type; the world's type wins over any scene's, and among scenes the last in branch order wins |
| Controller.GetObjectAttribute | src/controller/controller.cpp:111-127 | the value comes from the first root, in branch order, that has the leaf; empty when none has it |
| Controller.GetObjectAlias | src/controller/controller.cpp:24-40 | the alias comes from the first root with the leaf; an empty alias gives the name itself; no leaf gives "" |
| Controller.SetWorldAttribute | src/controller/controller.cpp:298-306 | the existing world leaf is set, or one callRoot command for the world is queued, never both |
| Controller.SetWorldAttributeEffect | src/controller/controller.cpp:298-328 | afterwards the world leaf reads the new values with no command queued, or the tree is untouched and one command carrying name and values is queued |
| Controller.SetInRoot | src/controller/controller.cpp:337-340 | under one root, an existing leaf reads the new values, other leaves keep theirs, and no leaf is created or removed |
| Controller.SetObjectAttribute | src/controller/controller.cpp:331-342 | under every root that has the leaf it reads the new values; other leaves keep theirs; no leaf is created; roots keep their names and objects |
| Controller.SetThenGetObjectAttribute | src/controller/controller.cpp:111-127 | after setting, reading the attribute yields the new values when any root had it |
| Controller.SetOrEnqueue | src/controller/controller.cpp:353-368 | an object of the type has its leaf set or a callObject command queued; untyped objects and other types are skipped |
| Controller.SetObjectsOfType | src/controller/controller.cpp:345-370 | every root is visited in branch order; each object is replaced by what SetOrEnqueue makes of it, and the tree keeps its shape |
| Controller.CommandsInRoot | src/controller/controller.cpp:345-370 | the commands queued for a root are exactly one callObject command per object of the type lacking the leaf, in object order, addressed to that root and naming object, attribute and values |
| Controller.SetObjectsOfTypeCommands | src/controller/controller.cpp:347-369 | the queue holds the commands of each root in branch order: those of one root come after every earlier root's and before every later root's |
| Controller.SetObjectsOfTypeLeaves | src/controller/controller.cpp:360-364 | a matching object with the leaf reads the new values; every other object is unchanged |
| Controller.GetObjectsOfType | src/controller/controller.cpp:276-288 | outside a scene the list is empty; inside, it holds exactly the scene's objects of that type, or all of them for the empty type |
| Controller.EmptyTypeSelectsAll | src/controller/controller.cpp:283-285 | the empty type selects every object of the scene |
| Filter.Clamp | src/graphics/filter.cpp:520 | a value is kept inside [lo, hi] and brought to the nearer bound outside |
| Filter.SetClamped | src/graphics/filter.cpp:517-522 | brightness, contrast and saturation store their argument clamped into [0, 2] and change no other uniform |
| Filter.GetWithDefault | src/graphics/filter.cpp:524-529 | a getter inserts its default when the uniform is missing, then reports the stored uniform |
| Filter.ClampedRoundTrip | src/graphics/filter.cpp:517-655 | brightness, contrast and saturation read back clamped into [0, 2]; before being set they read 1, and the colour temperature reads 6500 |
| Filter.SetColorTemperature | src/graphics/filter.cpp:549-564 | the temperature is clamped into [0, 16000], and the colour balance derived from it is stored too |
| Filter.SetBlackLevel | src/graphics/filter.cpp:486-491 | the black level is clamped into [0, 255] and stored divided by 255 |
| Filter.GetBlackLevel | src/graphics/filter.cpp:492-497 | the getter yields one value and inserts 0 when no black level is stored, leaving a stored one alone |
| Filter.BlackLevelRoundTrip | src/graphics/filter.cpp:486-498 | the getter scales the stored fraction back, so a level reads back clamped into [0, 255] |
| Filter.SetInvertChannels | src/graphics/filter.cpp:617-623 | the integer argument is clamped into {0, 1} |
| Filter.SetScale | src/graphics/filter.cpp:658-664 | the two factors are stored as given |
| Filter.InvertAndScaleRoundTrip | src/graphics/filter.cpp:617-671 | inversion reads back 0 or 1 and is 0 until set; scale reads back what was set and is (1, 1) until set |
| Filter.CurvesAgreeSpec | src/graphics/filter.cpp:569-580 | the curve check accepts exactly the curve sets where the first non-empty curve has at least 2 points and every later curve has as many |
| Filter.SetColorCurves | src/graphics/filter.cpp:567-586 | colorCurves is refused iff a curve's length differs from the first non-empty one's or that length is below 2; accepted curves replace the current ones |
| Filter.LinearCurve | src/graphics/filter.cpp:597-599 | a linear curve of count points runs evenly from 0 to 1 |
| Filter.SetColorCurveAnchors | src/graphics/filter.cpp:588-608 | the count is read as unsigned 32-bit; counts below 2 are refused; curves that already have that count are kept; otherwise three identical linear curves replace them |
| Filter.GetColorCurveAnchors | src/graphics/filter.cpp:609-614 | the getter reports the points per curve, 0 when there are no curves |
| Filter.ColorCurveAnchorsRoundTrip | src/graphics/filter.cpp:588-614 | an accepted count reads back, and the curves it creates pass the colorCurves check |
| Filter.SetSizeOverride | src/graphics/filter.cpp:690-699 | the two requested dimensions are stored and nothing else changes |
| Filter.OutputSize | src/graphics/filter.cpp:182-197 | without an override the output is the input; an override with a positive dimension applies only when the input size changed or both its dimensions are positive, giving width so[0] if non-zero else so[1] and height so[1] if non-zero else so[0]; otherwise the current size is kept |
| Filter.OutputSizeStable | src/graphics/filter.cpp:182-197 | rendering again with the same input and override keeps the output size |
| Filter.OutputTimestamp | src/graphics/filter.cpp:199-208 | the timestamp is the maximum over the live inputs' timestamps, or 0 if there are none |
| Filter.Exposed | src/graphics/filter.cpp:364-366 | a uniform is exposed iff it is declared, named, and does not start with '_' |
| Filter.SetFilterSource | src/graphics/filter.cpp:336-392 | a source that does not compile changes nothing; otherwise previous uniform attributes are withdrawn, exposed uniforms become attributes, and previously set values are restored, each restore taken as accepted |
| Filter.SetFilterSourceSpec | src/graphics/filter.cpp:356-388 | no hidden or unnamed uniform becomes an attribute, and loading the same source again changes nothing |
| Filter.SetFilterSourceAttr | src/graphics/filter.cpp:399-410 | an empty filterSource is a successful no-op; otherwise the source is recorded, the uniforms and attributes become those of loading it, and success is reported |
| Filter.FilterSourceRoundTrip | src/graphics/filter.cpp:399-410 | a non-empty source reads back from the attribute |
| Warp.LinkIt | src/graphics/warp.cpp:74-93 | a missing object is refused; anything else is accepted, but only a camera replaces the input camera and its texture on the screen |
| Warp.UnlinkIt | src/graphics/warp.cpp:102-119 | the slot and the texture are cleared only when the input camera itself is unlinked |
| Warp.LinkThenUnlink | src/graphics/warp.cpp:74-119 | for a warp with no input camera whose screen does not already show the camera's texture, linking the camera and unlinking it restores the warp |
| Warp.LinkReplacesCamera | src/graphics/warp.cpp:79-92 | linking a second camera leaves exactly its texture on the screen |
| Warp.SetMeshAttribute | src/graphics/warp.cpp:262-292 | patchControl and patchResolution fail without a mesh; with one, the mesh decides, and only an accepted value is stored, replacing that attribute alone |
| Warp.GetMeshAttribute | src/graphics/warp.cpp:268-274 | without a mesh the patch attributes read back empty |
| Warp.Min8 | src/graphics/warp.cpp:299 | a dimension is capped at 8 and kept when it is at most 8 |
| Warp.SetPatchSize | src/graphics/warp.cpp:295-300 | fails without a mesh; with one, the mesh decides on both dimensions capped at 8, and a refusal changes nothing |
| Warp.PatchAttributesRoundTrip | src/graphics/warp.cpp:262-310 | accepted patch control and resolution read back as given, an accepted patch size reads back capped at 8; without a mesh all three fail and read back empty |
| Warp.ShowControlLattice | src/graphics/warp.cpp:328-335 | hiding the lattice resets the selected control point to -1 |
| Warp.ShowControlPoint | src/graphics/warp.cpp:339-348 | the selection is the index if it lies in [0, count), otherwise -1 |
| Warp.SelectionInRange | src/graphics/warp.cpp:328-348 | a selection always names an existing point, and hiding the lattice drops it |
| Warp.PickControlPoint | src/graphics/warp.cpp:197-220 | -1 for no points; otherwise the first index of minimal distance, by strict comparison, starting from the largest float |
| GeometricCalibrator.LinkIt | src/controller/geometriccalibrator.cpp:70-81 | linking is accepted iff there is no grabber and the object is an image |
| GeometricCalibrator.UnlinkIt | src/controller/geometriccalibrator.cpp:84-92 | the grabber is cleared only when that same image is unlinked |
| GeometricCalibrator.LinkThenUnlink | src/controller/geometriccalibrator.cpp:70-92 | linking an image and unlinking it restores the calibrator; while linked nothing else is accepted |
| GeometricCalibrator.SetCameraModel | src/controller/geometriccalibrator.cpp:569-576 | a name starting with PINHOLE selects pinhole, then FISHEYE selects fisheye; anything else changes nothing and still reports true |
| GeometricCalibrator.CameraModelRoundTrip | src/controller/geometriccalibrator.cpp:569-586 | the getter's name, set again, selects the same model |
| GeometricCalibrator.AbortCalibration | src/controller/geometriccalibrator.cpp:553-557 | aborting sets both the abort and finalize flags |
| GeometricCalibrator.FinishCapture | src/controller/geometriccalibrator.cpp:402-415 | the calibration goes ahead iff not aborted and at least 3 positions were captured; the abort flag is reset |
| GeometricCalibrator.AbortDiscards | src/controller/geometriccalibrator.cpp:553-557 | an abort always discards the calibration and leaves no pending signal |
| GeometricCalibrator.Unlinks | src/controller/geometriccalibrator.cpp:148-153 | every object of a window except "gui" ones is unlinked from it |
| GeometricCalibrator.SetupUnlinks | src/controller/geometriccalibrator.cpp:146-154 | the unlink calls are exactly the non-gui objects of every window |
| GeometricCalibrator.SetupUnlinksSpec | src/controller/geometriccalibrator.cpp:146-154 | an (object, window) pair is unlinked iff the object is linked to that window and is not a gui |
| GeometricCalibrator.FilteredWindows | src/controller/geometriccalibrator.cpp:165-179 | filters are created, in window order, exactly for windows with a non-zero texture count |
| GeometricCalibrator.LayoutIndexSpec | src/controller/geometriccalibrator.cpp:266-278 | a camera's layout index in a window is the number of camera-typed links before it; a camera not linked there has none |
| GeometricCalibrator.FindCamera | src/controller/geometriccalibrator.cpp:263-283 | the search stops at the first window whose links hold the camera; a camera found nowhere is skipped |
| GeometricCalibrator.FindCameraSpec | src/controller/geometriccalibrator.cpp:263-283 | a found camera is linked to the window found, is typed camera, and no earlier window links it |
| GeometricCalibrator.LayoutAsWritten | src/controller/geometriccalibrator.cpp:285-286 | the layout is four zeros with a 2 at the camera's index; only an index below 4 is written in range |
| GeometricCalibrator.LayoutIndexPastSlots | src/controller/geometriccalibrator.cpp:263-286 | a window linked to five cameras gives the fifth index 4, past the four slots |
| GeometricCalibrator.Layout | src/controller/geometriccalibrator.cpp:285-286 | the intended layout has a 2 in the camera's slot and 0 elsewhere, and no layout for a camera without a slot |
| GeometricCalibrator.LayoutAgrees | src/controller/geometriccalibrator.cpp:285-286 | where the C++ code's write is in range, the intended layout equals it |

## Left out

- The ZeroMQ sockets, context teardown, linger options, `nanosleep` and the two receive threads of the link are I/O and concurrency. The lease registry is modelled sequentially, with the try-lock as membership in a set.
- The transport's failure is modelled as how many frames it accepted (`accepted` of `Link.SendBuffer`). Exceptions and their logging are not modelled.
- Exact byte widths of the payloads come from `Value`, which is not part of this model:
  - ints are 4-byte little-endian two's complement;
  - floats go through the `FloatLayout` parameter;
  - the type tags are assumed to be numbered 0..3 in the order int, float, string, values.
- Codec.DecodeSeq: running out of frames, or a count or tag frame shorter than 4 bytes, gives `None`. The C++ code would block waiting for a frame or read out of bounds.
- Codec.DecodeScalar: an int or float payload frame shorter than 4 bytes also gives `None` (`TooShort`), where the C++ code reads past the frame. A string payload without a NUL decodes as the whole frame, where the C++ code reads past it.
- Codec.DecodeMessage: a target or attribute frame without a NUL decodes as the whole frame, where the C++ code reads past it.
- Strings are sequences of characters, and a round trip needs every character to fit in one byte and none to be NUL (`IsWireText`). There is no encoding.
- OpenGL work is not modelled: FBOs, shader compilation and the compute and feedback passes of objects, filters and warps. The shader a filter compiles enters only as the uniforms it declares.
- The automatic black level loop, `blackLevelAuto` and `updateSizeWrtRatio` are floating-point control and ratio math. `Filter.OutputSize` takes the override as it stands after the ratio update.
- Filter.SetFilterSource: restoring a previous uniform value goes through the newly registered attribute, whose argument types come from the declared value, and its refusal is ignored. The model assumes every restore succeeds, so a previous value whose shape the new declaration refuses (say one float where two are declared) is kept here, while the C++ code keeps the declared value.
- Filter.SetColorTemperature: the colour balance formula is the `balance` parameter.
- Filter: floats are modelled as reals, so float32 rounding is ignored. A black level x is stored as x/255 and read back times 255, which in float32 can differ in the last bit (7.97 reads back as 7.9700003). Filter.OutputSize compares only width and height, while the C++ code compares whole image buffer specs.
- Shader file loading and watching (`fileFilterSource`, `watchShaderFile`) are file I/O.
- The filter's `keepRatio`, `size`, mipmap and buffer attributes only forward to code that is not part of this model.
- Work a filter queues with `addTask` is applied at once.
- Filter.SetColorCurves: lengths of 2^32 or more, which would wrap the 32-bit point count, are not modelled.
- Filter, Warp and GeometricCalibrator setters take `requires |args| >= n`, where n is the number of declared argument types. The attribute machinery checks the count before the setter runs; that machinery is not part of this model.
- Warp.ShowControlPoint requires a patch mesh, because the C++ code dereferences it unconditionally.
- The warp's `size` attribute, rendering and the mesh's own handling of patch attributes (`meshAccepts`) are left out, as are the `switchMeshes` and `update` calls of a pick.
- Warp.PickControlPoint: the distance is the `dist` parameter, and float rounding is not modelled.
- Warp.PatchAttributesRoundTrip: the patch mesh is not part of this model. It is assumed to store an accepted value unchanged and report it back; `meshAccepts` stands only for its decision.
- Warp: a camera that expired is not modelled; a linked camera stays alive.
- Object.ResetBlendingMap: a comparison past the end of the texture list, which C++ leaves undefined, is reported as `ok == false` with the state unchanged. The contract promises `ok` only under the sufficient condition that the last texture equals no blending map but the last. Some inputs outside it also run safely, for example textures [X, M, M] with blending maps [M, M]; for them it promises only that a successful run strips the maps.
- Object.DerivedNames: the names are told apart only for one object. Across objects they can coincide (Object.DerivedNamesAcrossObjects), and then one object's `unlinkFrom` would fetch from the root registry the texture or geometry another object created; the registry is not part of this model.
- Object.AddTexture: `addTexture` itself lives in `object.h`, which is not part of this model. It is assumed to append.
- Object: the shader caching in `activate` and the uniforms it sets (sideness, scale) are not modelled. The Syphon check on the first texture is the `firstIsSyphon` parameter.
- Controller: objects are named by string. `getObjectAliases`, `getObjectAttributes`, attribute descriptions, `setInScene` and `sendBuffer` are left out because they only forward.
- Controller.GetObjectTypes requires every object to have a type leaf, which the C++ code asserts. The type read from the leaf is taken as already converted to a string.
- Controller.GetObjectsOfType: the scene's objects are an unordered map in the C++ code. The model keeps a sequence and does not promise an order.
- GeometricCalibrator: a `Complete` saved configuration is required. The C++ code's `map::at` would throw on a missing window, link list or type.
- GeometricCalibrator: saving and restoring the configuration, creating images and filters, the waits, and pattern capture, decoding and reconstruction are foreign libraries, threads and I/O.
- GeometricCalibrator: the lookup also gives up when the window found has an empty name, as the C++ code does.
- BaseObject: attribute descriptions, types, locking, the callback invocation itself and the running of periodic tasks are left out. The header documents the contract; its implementation file is not part of this model.
- BaseObject.RegisterCallback: the handle is the next unused number. Splash's handle generator is not part of this model.

## Findings

| source | as written | input that shows it | evidently intended | confidence | as-written member | corrected member |
|---|---|---|---|---|---|---|
| src/controller/geometriccalibrator.cpp:285-286 | the layout `{0, 0, 0, 0}` is indexed with the camera's layout index unchecked | a window linked to five cameras: the fifth camera gets index 4, and the write lands past the four slots | a camera without a slot in the window's four-slot layout gets no pattern | medium, not executed | GeometricCalibrator.LayoutIndexPastSlots | GeometricCalibrator.Layout |

=== FILE: base_object.dfy ===
/**
 The attribute store every object inherits (src/core/base_object.h): named
 attributes with setters and getters, setter callbacks identified by handles,
 and named periodic tasks.

 A registered attribute has a setter that may refuse its arguments; when it
 accepts them, the getter from then on reports the values it stored. Setting a
 name nobody registered creates a plain holder for the values; such a holder
 does not count as an existing attribute.
 */
module BaseObject {

  import opened Wrappers
  import opened ValueTypes

  /**
   One attribute. `setter(args)` is `None` when the setter refuses the
   arguments, otherwise what the getter reports afterwards.
   */
  datatype Attribute = Attribute(setter: Values -> Option<Values>, values: Values, registered: bool)

  type CallbackHandle = nat

  /** A task run once per frame, or at most once every `period` milliseconds. */
  datatype PeriodicTask = PeriodicTask(task: nat, period: nat)

  datatype Store = Store(
    attributes: map<string, Attribute>,
    callbacks: map<CallbackHandle, string>,
    nextHandle: CallbackHandle,
    periodicTasks: map<string, PeriodicTask>)

  /** Handles already given out are below the next one. */
  ghost predicate Valid(st: Store) {
    forall h :: h in st.callbacks ==> h < st.nextHandle
  }

  /** The arguments a plain holder stores: all of them, unchanged. */
  function Holder(args: Values): Attribute {
    Attribute(a => Some(a), args, false)
  }

  /**
   Sets `name` from `args`. True only when a registered attribute of that name
   exists and its setter accepted the arguments.
   */
  function SetAttribute(st: Store, name: string, args: Values): (r: (bool, Store))
    ensures r.0 <==> name in st.attributes && st.attributes[name].registered
                     && st.attributes[name].setter(args).Some?
    ensures r.1.callbacks == st.callbacks && r.1.nextHandle == st.nextHandle
    ensures r.1.periodicTasks == st.periodicTasks
    ensures forall n :: n in st.attributes && n != name ==> n in r.1.attributes && r.1.attributes[n] == st.attributes[n]
    ensures forall n :: n in r.1.attributes ==> n in st.attributes || n == name
  {
    if name !in st.attributes || !st.attributes[name].registered then
      (false, st.(attributes := st.attributes[name := Holder(args)]))
    else
      var a := st.attributes[name];
      match a.setter(args)
      case None => (false, st)
      case Some(stored) => (true, st.(attributes := st.attributes[name := a.(values := stored)]))
  }

  /**
   Reads `name`: true only for a registered attribute; a plain holder still
   yields its values, and an unknown name yields none.
   */
  function GetAttribute(st: Store, name: string): (r: (bool, Values))
    ensures r.0 <==> name in st.attributes && st.attributes[name].registered
    ensures name !in st.attributes ==> r.1 == []
  {
    if name in st.attributes then (st.attributes[name].registered, st.attributes[name].values)
    else (false, [])
  }

  /** Declares an attribute with a setter; it starts with no values. */
  function AddAttribute(st: Store, name: string, setter: Values -> Option<Values>): (st': Store)
    ensures name in st'.attributes && st'.attributes[name].registered
    ensures forall n :: n in st.attributes && n != name ==> n in st'.attributes && st'.attributes[n] == st.attributes[n]
  {
    st.(attributes := st.attributes[name := Attribute(setter, [], true)])
  }

  /**
   A registered attribute reads back exactly what its setter stored from the
   last accepted arguments; refused arguments leave the earlier values.
   */
  lemma SetThenGetRegistered(st: Store, name: string, args: Values)
    requires name in st.attributes && st.attributes[name].registered
    ensures var (ok, st') := SetAttribute(st, name, args);
      GetAttribute(st', name) ==
        (true, if ok then st.attributes[name].setter(args).value else st.attributes[name].values)
  {
  }

  /**
   Setting a name nobody registered keeps the values: reading it reports that the
   attribute does not exist but yields the same values.
   */
  lemma SetThenGetUnregistered(st: Store, name: string, args: Values)
    requires name !in st.attributes || !st.attributes[name].registered
    ensures var (ok, st') := SetAttribute(st, name, args);
      !ok && GetAttribute(st', name) == (false, args)
  {
  }

  /** Setting one attribute does not change what any other attribute reads. */
  lemma SetLeavesOthers(st: Store, name: string, other: string, args: Values)
    requires other != name
    ensures GetAttribute(SetAttribute(st, name, args).1, other) == GetAttribute(st, other)
  {
  }

  /**
   The integer attribute of the object under test: its setter keeps the first
   argument, and a later read returns it.
   */
  function KeepFirst(args: Values): Option<Values> {
    if |args| == 0 then None else Some([args[0]])
  }

  /**
   A store holding a registered attribute that keeps its first argument and a
   name never set: after setting that attribute and an unregistered one, the
   three reads behave as the attribute-store test expects.
   */
  lemma StoreScenario(st: Store, v: Value, extra: Values)
    requires "integer" !in st.attributes && "newAttribute" !in st.attributes && "inexistingAttribute" !in st.attributes
    ensures var st1 := AddAttribute(st, "integer", KeepFirst);
      var st2 := SetAttribute(st1, "integer", [v]).1;
      var st3 := SetAttribute(st2, "newAttribute", extra).1;
      && GetAttribute(st3, "integer") == (true, [v])
      && GetAttribute(st3, "newAttribute") == (false, extra)
      && GetAttribute(st3, "inexistingAttribute") == (false, [])
  {
    var st1 := AddAttribute(st, "integer", KeepFirst);
    SetThenGetRegistered(st1, "integer", [v]);
    var st2 := SetAttribute(st1, "integer", [v]).1;
    SetLeavesOthers(st2, "newAttribute", "integer", extra);
    SetThenGetUnregistered(st2, "newAttribute", extra);
    assert "inexistingAttribute" !in st2.attributes;
  }

  /** Registers a callback on `attr` under a fresh handle. */
  function RegisterCallback(st: Store, attr: string): (r: (CallbackHandle, Store))
    requires Valid(st)
    ensures r.0 !in st.callbacks && r.1.callbacks == st.callbacks[r.0 := attr]
    ensures Valid(r.1)
  {
    (st.nextHandle, st.(callbacks := st.callbacks[st.nextHandle := attr], nextHandle := st.nextHandle + 1))
  }

  /** Removes the callback of `handle`; true exactly when it was registered. */
  function UnregisterCallback(st: Store, handle: CallbackHandle): (r: (bool, Store))
    ensures r.0 <==> handle in st.callbacks
    ensures handle !in r.1.callbacks
    ensures forall h :: h in st.callbacks && h != handle ==> h in r.1.callbacks && r.1.callbacks[h] == st.callbacks[h]
    ensures r.1.attributes == st.attributes && r.1.periodicTasks == st.periodicTasks
  {
    (handle in st.callbacks, st.(callbacks := st.callbacks - {handle}))
  }

  /**
   Unregistering a fresh handle succeeds once and restores the callbacks; a
   second attempt with the same handle fails.
   */
  lemma RegisterThenUnregister(st: Store, attr: string)
    requires Valid(st)
    ensures var (h, st1) := RegisterCallback(st, attr);
      var (ok, st2) := UnregisterCallback(st1, h);
      ok && st2.callbacks == st.callbacks && !UnregisterCallback(st2, h).0
  {
    var (h, st1) := RegisterCallback(st, attr);
    assert st1.callbacks - {h} == st.callbacks;
  }

  /** Adds the periodic task `name`; a task already under that name is replaced. */
  function AddPeriodicTask(st: Store, name: string, task: nat, period: nat): (st': Store)
    ensures name in st'.periodicTasks && st'.periodicTasks[name] == PeriodicTask(task, period)
    ensures forall n :: n in st.periodicTasks && n != name ==> n in st'.periodicTasks && st'.periodicTasks[n] == st.periodicTasks[n]
    ensures st'.periodicTasks.Keys == st.periodicTasks.Keys + {name}
  {
    st.(periodicTasks := st.periodicTasks[name := PeriodicTask(task, period)])
  }

  /** Removes the periodic task `name` and no other. */
  function RemovePeriodicTask(st: Store, name: string): (st': Store)
    ensures st'.periodicTasks.Keys == st.periodicTasks.Keys - {name}
    ensures forall n :: n in st'.periodicTasks ==> st'.periodicTasks[n] == st.periodicTasks[n]
  {
    st.(periodicTasks := st.periodicTasks - {name})
  }

  /** Adding a task under a new name and removing it again leaves the tasks as they were. */
  lemma AddThenRemovePeriodicTask(st: Store, name: string, task: nat, period: nat)
    requires name !in st.periodicTasks
    ensures RemovePeriodicTask(AddPeriodicTask(st, name, task, period), name).periodicTasks == st.periodicTasks
  {
    var st' := RemovePeriodicTask(AddPeriodicTask(st, name, task, period), name);
    assert st'.periodicTasks.Keys == st.periodicTasks.Keys;
  }
}

=== FILE: calibrator.dfy ===
/**
 The bookkeeping of the geometric calibrator
 (src/controller/geometriccalibrator.cpp): the grabber it captures from, the
 camera model, the abort and finalize signals, how the windows are prepared
 for calibration, where each camera is shown, and whether enough positions
 were captured.

 Capture, decoding and reconstruction (OpenCV and the structured-light
 library), waits and threads are not modelled.
 */
module GeometricCalibrator {

  import opened Wrappers
  import opened ValueTypes
  import Seqs

  /** What can be linked: an image (identified by `id`), or anything else. */
  datatype GraphObject = ImageObject(id: nat) | OtherObject

  datatype CameraModel = Pinhole | Fisheye

  datatype CalibratorState = CalibratorState(
    grabber: Option<nat>,
    cameraModel: CameraModel,
    abortCalibration: bool,
    finalizeCalibration: bool)

  /** `linkIt`: takes an image as grabber, only while there is none. */
  function LinkIt(st: CalibratorState, obj: GraphObject): (r: (bool, CalibratorState))
    ensures r.0 <==> st.grabber.None? && obj.ImageObject?
    ensures r.0 ==> r.1 == st.(grabber := Some(obj.id))
    ensures !r.0 ==> r.1 == st
  {
    if st.grabber.Some? then (false, st)
    else if !obj.ImageObject? then (false, st)
    else (true, st.(grabber := Some(obj.id)))
  }

  /** `unlinkIt`: drops the grabber only when that same image is unlinked. */
  function UnlinkIt(st: CalibratorState, obj: GraphObject): (st': CalibratorState)
    ensures obj.ImageObject? && st.grabber == Some(obj.id) ==> st' == st.(grabber := None)
    ensures !(obj.ImageObject? && st.grabber == Some(obj.id)) ==> st' == st
  {
    if obj.ImageObject? && st.grabber == Some(obj.id) then st.(grabber := None) else st
  }

  /**
   Linking an image to a calibrator without a grabber and unlinking it again
   restores the calibrator; while it is linked, no other object is accepted.
   */
  lemma LinkThenUnlink(st: CalibratorState, id: nat, other: GraphObject)
    requires st.grabber.None?
    ensures var (ok, st1) := LinkIt(st, ImageObject(id));
      && ok
      && !LinkIt(st1, other).0
      && UnlinkIt(st1, ImageObject(id)) == st
  {
  }

  /** `cameraModel`: a name starting with PINHOLE or FISHEYE selects that model; anything else is ignored. */
  function SetCameraModel(st: CalibratorState, args: Values, cv: Conversions): (r: (bool, CalibratorState))
    requires |args| >= 1
    ensures r.0
    ensures var m := cv.asString(args[0]);
      && (StartsWith(m, "PINHOLE") ==> r.1 == st.(cameraModel := Pinhole))
      && (!StartsWith(m, "PINHOLE") && StartsWith(m, "FISHEYE") ==> r.1 == st.(cameraModel := Fisheye))
      && (!StartsWith(m, "PINHOLE") && !StartsWith(m, "FISHEYE") ==> r.1 == st)
  {
    var m := cv.asString(args[0]);
    if StartsWith(m, "PINHOLE") then (true, st.(cameraModel := Pinhole))
    else if StartsWith(m, "FISHEYE") then (true, st.(cameraModel := Fisheye))
    else (true, st)
  }

  function GetCameraModel(st: CalibratorState): Values {
    match st.cameraModel
    case Pinhole => [Str("PINHOLE")]
    case Fisheye => [Str("FISHEYE")]
  }

  /** What the getter reports, set again, selects the same model. */
  lemma CameraModelRoundTrip(st: CalibratorState, other: CalibratorState, cv: Conversions)
    requires Exact(cv)
    ensures SetCameraModel(other, GetCameraModel(st), cv).1.cameraModel == st.cameraModel
  {
    var name := GetCameraModel(st)[0].s;
    assert cv.asString(Str(name)) == name;
    assert name[..|name|] == name;
    if st.cameraModel == Fisheye {
      assert !StartsWith(name, "PINHOLE") by {
        assert name[0] != "PINHOLE"[0];
      }
    }
  }

  /** `abortCalibration`: asks the capture loop both to stop and to drop the calibration. */
  function AbortCalibration(st: CalibratorState): (st': CalibratorState)
    ensures st'.abortCalibration && st'.finalizeCalibration
    ensures st'.grabber == st.grabber && st'.cameraModel == st.cameraModel
  {
    st.(abortCalibration := true, finalizeCalibration := true)
  }

  /**
   The end of the capture loop after `positions` positions: the finalize signal
   is cleared; an abort is consumed and yields no calibration; fewer than three
   positions yield none either. `r.0` is true when the calibration goes ahead.
   */
  function FinishCapture(st: CalibratorState, positions: nat): (r: (bool, CalibratorState))
    ensures r.0 <==> !st.abortCalibration && positions >= 3
    ensures !r.1.abortCalibration && !r.1.finalizeCalibration
    ensures r.1.grabber == st.grabber && r.1.cameraModel == st.cameraModel
  {
    var st' := st.(finalizeCalibration := false);
    if st'.abortCalibration then (false, st'.(abortCalibration := false))
    else if positions < 3 then (false, st')
    else (true, st')
  }

  /** An abort during capture always discards the calibration and leaves no pending signal. */
  lemma AbortDiscards(st: CalibratorState, positions: nat)
    ensures var (go, st') := FinishCapture(AbortCalibration(st), positions);
      !go && !st'.abortCalibration && !st'.finalizeCalibration
  {
  }

  /**
   The configuration saved before calibration: windows in order, the objects
   linked to each window, every object's type, and how many textures each
   window shows.
   */
  datatype Configuration = Configuration(
    windows: seq<string>,
    links: map<string, seq<string>>,
    types: map<string, string>,
    textureCounts: seq<int>)

  /**
   Every lookup the calibrator makes in a saved configuration succeeds: a saved
   configuration lists the links of each window, the type of each linked
   object, and one texture count per window.
   */
  ghost predicate Complete(c: Configuration) {
    && |c.textureCounts| == |c.windows|
    && (forall w :: 0 <= w < |c.windows| ==> c.windows[w] in c.links)
    && (forall w, k :: 0 <= w < |c.windows| && c.windows[w] in c.links && 0 <= k < |c.links[c.windows[w]]|
          ==> c.links[c.windows[w]][k] in c.types)
  }

  /** The objects of `linked` to unlink from a window: all but the "gui" ones. */
  function Unlinks(linked: seq<string>, types: map<string, string>, window: string): (r: seq<(string, string)>)
    requires forall k :: 0 <= k < |linked| ==> linked[k] in types
    ensures forall p :: p in r <==> p.1 == window && p.0 in linked && types[p.0] != "gui"
    decreases |linked|
  {
    if |linked| == 0 then []
    else
      var rest := Unlinks(linked[1..], types, window);
      assert forall o :: o in linked <==> o == linked[0] || o in linked[1..];
      (if types[linked[0]] == "gui" then [] else [(linked[0], window)]) + rest
  }

  /** The unlink calls of the set-up, window by window. */
  function SetupUnlinks(c: Configuration, n: nat): (r: seq<(string, string)>)
    requires Complete(c) && n <= |c.windows|
    ensures forall p :: p in r <==>
      exists w :: 0 <= w < n && p.1 == c.windows[w] && p.0 in c.links[c.windows[w]] && c.types[p.0] != "gui"
  {
    if n == 0 then []
    else
      var w := c.windows[n - 1];
      var before := SetupUnlinks(c, n - 1);
      var these := Unlinks(c.links[w], c.types, w);
      before + these
  }

  /**
   The set-up takes every object except the GUI off every window, and nothing
   else: no call names a GUI object or something not linked to that window.
   */
  lemma SetupUnlinksSpec(c: Configuration, o: string, window: string)
    requires Complete(c)
    ensures (o, window) in SetupUnlinks(c, |c.windows|) <==>
      window in c.windows && o in c.links[window] && c.types[o] != "gui"
  {
    if window in c.windows && o in c.links[window] && c.types[o] != "gui" {
      var w :| 0 <= w < |c.windows| && c.windows[w] == window;
      assert (o, window).1 == c.windows[w];
    }
  }

  /** The windows, by index, that get a calibration filter: those showing at least one texture. */
  function FilteredWindows(counts: seq<int>): (r: seq<nat>)
    ensures forall k: nat :: k in r <==> k < |counts| && counts[k] != 0
    ensures forall i, j :: 0 <= i < j < |r| ==> r[i] < r[j]
  {
    if |counts| == 0 then []
    else
      var before := FilteredWindows(counts[..|counts| - 1]);
      assert forall k: nat :: k < |counts| - 1 ==> counts[..|counts| - 1][k] == counts[k];
      assert forall i :: 0 <= i < |before| ==> before[i] < |counts| - 1 by {
        forall i | 0 <= i < |before|
          ensures before[i] < |counts| - 1
        {
          var k: nat := before[i];
          assert k in before;
        }
      }
      before + (if counts[|counts| - 1] != 0 then [|counts| - 1] else [])
  }

  /** Number of camera-typed objects in `linked`. */
  function CamerasIn(linked: seq<string>, types: map<string, string>): nat
    requires forall k :: 0 <= k < |linked| ==> linked[k] in types
  {
    if |linked| == 0 then 0
    else CamerasIn(linked[..|linked| - 1], types) + (if types[linked[|linked| - 1]] == "camera" then 1 else 0)
  }

  /**
   The inner search of the camera lookup in one window's links: the count of
   camera-typed objects passed before reaching `camera`, if the camera is there.
   */
  function LayoutIndex(linked: seq<string>, types: map<string, string>, camera: string): (r: Option<nat>)
    requires forall k :: 0 <= k < |linked| ==> linked[k] in types
    decreases |linked|
  {
    if |linked| == 0 then None
    else if types[linked[0]] != "camera" then LayoutIndex(linked[1..], types, camera)
    else if linked[0] == camera then Some(0)
    else match LayoutIndex(linked[1..], types, camera)
      case None => None
      case Some(l) => Some(l + 1)
  }

  lemma CamerasInFront(linked: seq<string>, types: map<string, string>)
    requires |linked| > 0 && forall k :: 0 <= k < |linked| ==> linked[k] in types
    ensures CamerasIn(linked, types) == (if types[linked[0]] == "camera" then 1 else 0) + CamerasIn(linked[1..], types)
    decreases |linked|
  {
    if |linked| > 1 {
      var n := |linked|;
      assert linked[..n - 1][1..] == linked[1..][..n - 2];
      CamerasInFront(linked[..n - 1], types);
    }
  }

  /**
   The camera's place in a window's layout is the number of cameras linked
   before it; a camera that is not linked, or not typed as a camera, has none.
   */
  lemma {:induction false} LayoutIndexSpec(linked: seq<string>, types: map<string, string>, camera: string)
    requires forall k :: 0 <= k < |linked| ==> linked[k] in types
    ensures camera in linked && types[camera] == "camera" ==>
      LayoutIndex(linked, types, camera) == Some(CamerasIn(linked[..Seqs.IndexOf(linked, camera)], types))
    ensures !(camera in linked && types[camera] == "camera") ==> LayoutIndex(linked, types, camera).None?
    decreases |linked|
  {
    if |linked| > 0 {
      LayoutIndexSpec(linked[1..], types, camera);
      var i := Seqs.IndexOf(linked, camera);
      if camera in linked && types[camera] == "camera" && linked[0] != camera {
        Seqs.IndexOfTail(linked, camera);
        assert linked[..i][1..] == linked[1..][..i - 1];
        CamerasInFront(linked[..i], types);
      } else if camera in linked && linked[0] == camera {
        assert linked[..i] == [];
      } else {
        assert camera !in linked || types[camera] != "camera";
        assert camera in linked[1..] <==> camera in linked;
      }
    }
  }

  /**
   The camera lookup of the capture loop: the first window, in order, whose
   links hold the camera, with the camera's layout index there; `None` when no
   window shows it (or the window found has an empty name), so the camera is
   skipped.
   */
  function FindCamera(c: Configuration, camera: string, from: nat): (r: Option<(nat, nat)>)
    requires Complete(c) && from <= |c.windows|
    ensures r.Some? ==>
      && from <= r.value.0 < |c.windows|
      && LayoutIndex(c.links[c.windows[r.value.0]], c.types, camera) == Some(r.value.1)
      && (forall w :: from <= w < r.value.0 ==> LayoutIndex(c.links[c.windows[w]], c.types, camera).None?)
    ensures r.None? ==>
      forall w :: from <= w < |c.windows| && LayoutIndex(c.links[c.windows[w]], c.types, camera).Some?
                  && (forall v :: from <= v < w ==> LayoutIndex(c.links[c.windows[v]], c.types, camera).None?)
                  ==> c.windows[w] == ""
    decreases |c.windows| - from
  {
    if from == |c.windows| then None
    else match LayoutIndex(c.links[c.windows[from]], c.types, camera)
      case Some(l) => if c.windows[from] == "" then None else Some((from, l))
      case None => FindCamera(c, camera, from + 1)
  }

  /**
   A camera shown in some window is found in the first such window, and its
   layout index counts the cameras linked there before it.
   */
  lemma FindCameraSpec(c: Configuration, camera: string)
    requires Complete(c)
    ensures var r := FindCamera(c, camera, 0);
      r.Some? ==>
        var linked := c.links[c.windows[r.value.0]];
        && camera in linked && c.types[camera] == "camera"
        && r.value.1 == CamerasIn(linked[..Seqs.IndexOf(linked, camera)], c.types)
        && forall w :: 0 <= w < r.value.0 ==> camera !in c.links[c.windows[w]]
  {
    var r := FindCamera(c, camera, 0);
    if r.Some? {
      LayoutIndexSpec(c.links[c.windows[r.value.0]], c.types, camera);
      forall w | 0 <= w < r.value.0
        ensures camera !in c.links[c.windows[w]]
      {
        LayoutIndexSpec(c.links[c.windows[w]], c.types, camera);
      }
    }
  }

  /** The texture layout of a window with four slots. */
  const LayoutSlots: nat := 4

  /**
   The layout given to the camera's filter as the C++ code writes it: four zeros
   with a 2 at the camera's index. The index is only written when it lies in the
   four slots; `None` stands for the out-of-range write the C++ code performs
   otherwise.
   */
  function LayoutAsWritten(index: nat): (r: Option<Values>)
    ensures r.Some? <==> index < LayoutSlots
    ensures r.Some? ==> |r.value| == LayoutSlots && r.value[index] == Int(2)
  {
    if index < LayoutSlots then Some([Int(0), Int(0), Int(0), Int(0)][index := Int(2)]) else None
  }

  /**
   The lookup can give a camera a layout index past the four slots: in a window
   linked to five cameras, the fifth gets index 4.
   */
  lemma LayoutIndexPastSlots()
    ensures var types := map["a" := "camera", "b" := "camera", "c" := "camera", "d" := "camera", "e" := "camera"];
      var c := Configuration(["window"], map["window" := ["a", "b", "c", "d", "e"]], types, [5]);
      && Complete(c)
      && FindCamera(c, "e", 0) == Some((0, 4))
      && LayoutAsWritten(4).None?
  {
    var types := map["a" := "camera", "b" := "camera", "c" := "camera", "d" := "camera", "e" := "camera"];
    var linked := ["a", "b", "c", "d", "e"];
    assert linked[1..] == ["b", "c", "d", "e"];
    assert linked[1..][1..] == ["c", "d", "e"];
    assert linked[1..][1..][1..] == ["d", "e"];
    assert linked[1..][1..][1..][1..] == ["e"];
  }

  /**
   The layout the camera's filter should get: a 2 in the camera's slot and 0 in
   the others, or no pattern at all for a camera that has no slot.
   */
  function Layout(index: nat): (r: Option<Values>)
    ensures r.Some? <==> index < LayoutSlots
    ensures r.Some? ==>
      && |r.value| == LayoutSlots
      && forall k :: 0 <= k < LayoutSlots ==> r.value[k] == (if k == index then Int(2) else Int(0))
  {
    if index < LayoutSlots then Some(seq(LayoutSlots, k requires 0 <= k < LayoutSlots => if k == index then Int(2) else Int(0)))
    else None
  }

  /** Where the C++ code's write is in range, the intended layout agrees with it. */
  lemma LayoutAgrees(index: nat)
    ensures index < LayoutSlots ==> Layout(index) == LayoutAsWritten(index)
  {
    if index < LayoutSlots {
      assert Layout(index).value == LayoutAsWritten(index).value;
    }
  }
}

=== FILE: codec.dfy ===
/**
 Wire format of the control channel (src/link.cpp).

 A message `(target, attribute, values)` travels as a run of frames: the target
 name and the attribute name, each as a C string with its NUL terminator, then
 the values. A sequence of values is a 4-byte element count followed, per
 element, by a 4-byte type tag and either one payload frame or, for a nested
 sequence, that sequence's own frames. Every frame carries the transport's
 "more parts follow" flag.

 The layout of a float payload comes from the `Value` class, which is not part
 of this model: it is a parameter (`FloatLayout`). Integers, counts and tags are
 32-bit little-endian two's complement, and the type tags are numbered in the
 order int, float, string, values.
 */
module Codec {

  import opened Wrappers
  import opened ValueTypes
  import Seqs

  /** One part of a multipart transport message and its "more parts follow" flag. */
  datatype Frame = Frame(data: Bytes, more: bool)

  /** How a float is laid out in its payload frame, and read back. */
  datatype FloatLayout = FloatLayout(encode: real -> Bytes, decode: Bytes -> real)

  datatype Message = Message(target: string, attribute: string, values: Values)

  const TagInt: int := 0
  const TagFloat: int := 1
  const TagString: int := 2
  const TagValues: int := 3

  function TagOf(v: Value): int {
    match v
    case Int(_) => TagInt
    case Float(_) => TagFloat
    case Str(_) => TagString
    case Vals(_) => TagValues
  }

  const Modulus32: int := 0x1_0000_0000

  /** The four bytes of a C `int` holding `n`, low byte first; `n` wraps modulo 2^32. */
  function Le32(n: int): (b: Bytes)
    ensures |b| == 4
  {
    var u := n % Modulus32;
    [(u % 256) as byte, (u / 0x100 % 256) as byte, (u / 0x1_0000 % 256) as byte, (u / 0x100_0000) as byte]
  }

  /** The C `int` stored in the first four bytes of `b`. */
  function Int32Of(b: Bytes): (n: int)
    requires |b| >= 4
    ensures -0x8000_0000 <= n < 0x8000_0000
  {
    var u := b[0] as int + 0x100 * b[1] as int + 0x1_0000 * b[2] as int + 0x100_0000 * b[3] as int;
    if u >= 0x8000_0000 then u - Modulus32 else u
  }

  /** Reading back an `int` gives the written number up to 32-bit wrap-around, and exactly when it fits. */
  lemma Int32OfLe32(n: int)
    ensures (Int32Of(Le32(n)) - n) % Modulus32 == 0
    ensures -0x8000_0000 <= n < 0x8000_0000 ==> Int32Of(Le32(n)) == n
  {
    var u := n % Modulus32;
    var b := Le32(n);
    var q0 := u / 0x100;
    var q1 := q0 / 0x100;
    var q2 := q1 / 0x100;
    assert u == u % 256 + 0x100 * q0;
    assert q0 == q0 % 256 + 0x100 * q1;
    assert q1 == q1 % 256 + 0x100 * q2;
    assert u / 0x1_0000 == q1;
    assert u / 0x100_0000 == q2;
    assert b[0] as int + 0x100 * b[1] as int + 0x1_0000 * b[2] as int + 0x100_0000 * b[3] as int == u;
  }

  /** Bytes of a name as sent: its characters and one trailing NUL. */
  function NameFrame(s: string): Frame {
    Frame(StrBytes(s) + [0], true)
  }

  /** The payload bytes of a non-sequence value. */
  function Payload(v: Value, fl: FloatLayout): Bytes
    requires !v.Vals?
  {
    match v
    case Int(i) => Le32(i)
    case Float(f) => fl.encode(f)
    case Str(s) => StrBytes(s) + [0]
  }

  /**
   Frames of a sequence: the count, then each element. The count frame ends the
   multipart message when the sequence is empty.
   */
  function EncodeSeq(vs: Values, fl: FloatLayout): seq<Frame>
    decreases vs, 1
  {
    [Frame(Le32(|vs|), |vs| != 0)] + EncodeElems(vs, fl)
  }

  /** Frames of the elements of a sequence, in order. */
  function EncodeElems(vs: Values, fl: FloatLayout): seq<Frame>
    decreases vs, 0
  {
    if |vs| == 0 then []
    else EncodeElem(vs[0], |vs| == 1, fl) + EncodeElems(vs[1..], fl)
  }

  /**
   Frames of one element: its tag, then a nested sequence or a payload. The
   payload of the last element of a sequence ends the multipart message.
   */
  function EncodeElem(v: Value, last: bool, fl: FloatLayout): seq<Frame>
    decreases v
  {
    [Frame(Le32(TagOf(v)), true)]
    + if v.Vals? then EncodeSeq(v.vs, fl) else [Frame(Payload(v, fl), !last)]
  }

  /** All frames of one control message. */
  function EncodeMessage(m: Message, fl: FloatLayout): seq<Frame> {
    [NameFrame(m.target), NameFrame(m.attribute)] + EncodeSeq(m.values, fl)
  }

  /** What the receiver makes of a payload frame with a given tag. */
  datatype Scalar = Element(v: Value) | UnknownTag | TooShort

  /**
   An int or float payload is read from its first four bytes, and a string up
   to its first NUL; the value read has the type the tag names.
   */
  function DecodeScalar(tag: int, data: Bytes, fl: FloatLayout): (r: Scalar)
    ensures r.UnknownTag? <==> tag != TagInt && tag != TagFloat && tag != TagString
    ensures r.TooShort? <==> (tag == TagInt || tag == TagFloat) && |data| < 4
    ensures r.Element? ==> TagOf(r.v) == tag
    ensures r.Element? && tag == TagInt ==> r.v.i == Int32Of(data[..4])
    ensures r.Element? && tag == TagFloat ==> r.v.f == fl.decode(data[..4])
    ensures r.Element? && tag == TagString ==> StrBytes(r.v.s) == data[..Seqs.IndexOf(data, 0)]
  {
    if tag == TagInt then
      if |data| < 4 then TooShort else Element(Int(Int32Of(data)))
    else if tag == TagFloat then
      if |data| < 4 then TooShort else Element(Float(fl.decode(data[..4])))
    else if tag == TagString then
      Element(Str(CString(data)))
    else
      UnknownTag
  }

  /**
   Reads one sequence from the front of `fs` and returns it with the frames that
   follow. Fails when the frames run out or a count or tag frame is shorter than
   an `int`.
   */
  function DecodeSeq(fs: seq<Frame>, fl: FloatLayout): (r: Option<(Values, seq<Frame>)>)
    decreases |fs|, 1
    ensures r.Some? ==> |r.value.1| < |fs|
  {
    if |fs| == 0 || |fs[0].data| < 4 then None
    else DecodeElems(fs[1..], Int32Of(fs[0].data), [], fl)
  }

  /**
   Reads `count` more elements, appending them to `acc`. An unknown tag consumes
   its payload frame and adds nothing; a non-positive count reads nothing.
   */
  function DecodeElems(fs: seq<Frame>, count: int, acc: Values, fl: FloatLayout): (r: Option<(Values, seq<Frame>)>)
    decreases |fs|, 0
    ensures r.Some? ==> |r.value.1| <= |fs|
  {
    if count <= 0 then Some((acc, fs))
    else if |fs| == 0 || |fs[0].data| < 4 then None
    else
      var tag := Int32Of(fs[0].data);
      if tag == TagValues then
        match DecodeSeq(fs[1..], fl)
        case None => None
        case Some((ws, rest)) => DecodeElems(rest, count - 1, acc + [Vals(ws)], fl)
      else if |fs| < 2 then None
      else
        match DecodeScalar(tag, fs[1].data, fl)
        case TooShort => None
        case UnknownTag => DecodeElems(fs[2..], count - 1, acc, fl)
        case Element(v) => DecodeElems(fs[2..], count - 1, acc + [v], fl)
  }

  /**
   An element with an unknown tag is skipped: its tag and payload frames are
   consumed, it counts as one of the `count` elements, and nothing is added.
   */
  lemma UnknownTagSkips(t: Frame, p: Frame, rest: seq<Frame>, count: int, acc: Values, fl: FloatLayout)
    requires count > 0 && |t.data| >= 4
    requires var tag := Int32Of(t.data);
      tag != TagInt && tag != TagFloat && tag != TagString && tag != TagValues
    ensures DecodeElems([t, p] + rest, count, acc, fl) == DecodeElems(rest, count - 1, acc, fl)
  {
    assert ([t, p] + rest)[2..] == rest;
  }

  /** Reads one message: target name, attribute name, values. */
  function DecodeMessage(fs: seq<Frame>, fl: FloatLayout): (r: Option<(Message, seq<Frame>)>)
    ensures r.Some? ==> |r.value.1| + 3 <= |fs|
  {
    if |fs| < 2 then None
    else
      match DecodeSeq(fs[2..], fl)
      case None => None
      case Some((vs, rest)) => Some((Message(CString(fs[0].data), CString(fs[1].data), vs), rest))
  }

  /** Values whose encoding the receiver reads back unchanged. */
  ghost predicate Representable(v: Value, fl: FloatLayout)
    decreases v
  {
    match v
    case Int(i) => -0x8000_0000 <= i < 0x8000_0000
    case Float(f) => |fl.encode(f)| == 4 && fl.decode(fl.encode(f)) == f
    case Str(s) => IsWireText(s)
    case Vals(ws) => RepresentableSeq(ws, fl)
  }

  /** A sequence whose length fits the `int` count and whose elements are representable. */
  ghost predicate RepresentableSeq(vs: Values, fl: FloatLayout)
    decreases vs
  {
    |vs| < 0x8000_0000 && forall k :: 0 <= k < |vs| ==> Representable(vs[k], fl)
  }

  ghost predicate RepresentableMessage(m: Message, fl: FloatLayout) {
    IsWireText(m.target) && IsWireText(m.attribute) && RepresentableSeq(m.values, fl)
  }

  lemma DecodeScalarPayload(v: Value, fl: FloatLayout)
    requires !v.Vals? && Representable(v, fl)
    ensures DecodeScalar(TagOf(v), Payload(v, fl), fl) == Element(v)
  {
    match v
    case Int(i) => Int32OfLe32(i);
    case Float(f) => assert fl.encode(f)[..4] == fl.encode(f);
    case Str(s) =>
      CStringOfStrBytes(s, []);
      assert StrBytes(s) + [0] + [] == StrBytes(s) + [0];
  }

  /** The tag frame of every element reads back as that element's tag. */
  lemma TagRoundTrip(v: Value)
    ensures Int32Of(Le32(TagOf(v))) == TagOf(v)
  {
    Int32OfLe32(TagOf(v));
  }

  /** Decoding the frames of a sequence yields the sequence and leaves what follows untouched. */
  lemma {:induction false} DecodeEncodeSeq(vs: Values, fl: FloatLayout, rest: seq<Frame>)
    requires RepresentableSeq(vs, fl)
    ensures DecodeSeq(EncodeSeq(vs, fl) + rest, fl) == Some((vs, rest))
    decreases vs, 1
  {
    var fs := EncodeSeq(vs, fl) + rest;
    assert fs[0] == Frame(Le32(|vs|), |vs| != 0);
    assert fs[1..] == EncodeElems(vs, fl) + rest;
    Int32OfLe32(|vs|);
    DecodeEncodeElems(vs, fl, rest, []);
    assert [] + vs == vs;
  }

  lemma {:induction false} DecodeEncodeElems(vs: Values, fl: FloatLayout, rest: seq<Frame>, acc: Values)
    requires forall k :: 0 <= k < |vs| ==> Representable(vs[k], fl)
    ensures DecodeElems(EncodeElems(vs, fl) + rest, |vs|, acc, fl) == Some((acc + vs, rest))
    decreases vs, 0
  {
    if |vs| == 0 {
      assert acc + vs == acc;
      assert EncodeElems(vs, fl) + rest == rest;
    } else {
      var tail := EncodeElems(vs[1..], fl) + rest;
      EncodeElemsCons(vs, fl, rest);
      DecodeElemStep(vs[0], |vs| == 1, fl, tail, |vs|, acc);
      DecodeEncodeElems(vs[1..], fl, rest, acc + [vs[0]]);
      assert acc + [vs[0]] + vs[1..] == acc + vs;
    }
  }

  /** The frames of a non-empty sequence: its first element's, then those of the rest. */
  lemma EncodeElemsCons(vs: Values, fl: FloatLayout, rest: seq<Frame>)
    requires |vs| > 0
    requires forall k :: 0 <= k < |vs| ==> Representable(vs[k], fl)
    ensures EncodeElems(vs, fl) + rest == EncodeElem(vs[0], |vs| == 1, fl) + (EncodeElems(vs[1..], fl) + rest)
    ensures Representable(vs[0], fl)
    ensures forall k :: 0 <= k < |vs[1..]| ==> Representable(vs[1..][k], fl)
  {
    assert forall k :: 0 <= k < |vs[1..]| ==> vs[1..][k] == vs[k + 1];
  }

  /** Reading one encoded element appends it and moves on to the frames after it. */
  lemma {:induction false} DecodeElemStep(v: Value, last: bool, fl: FloatLayout, tail: seq<Frame>, count: int, acc: Values)
    requires Representable(v, fl) && count > 0
    ensures DecodeElems(EncodeElem(v, last, fl) + tail, count, acc, fl)
         == DecodeElems(tail, count - 1, acc + [v], fl)
    decreases v
  {
    var fs := EncodeElem(v, last, fl) + tail;
    TagRoundTrip(v);
    assert fs[0] == Frame(Le32(TagOf(v)), true);
    if v.Vals? {
      assert fs[1..] == EncodeSeq(v.vs, fl) + tail;
      DecodeEncodeSeq(v.vs, fl, tail);
    } else {
      assert fs[1] == Frame(Payload(v, fl), !last);
      assert fs[2..] == tail;
      DecodeScalarPayload(v, fl);
    }
  }

  /**
   Round trip of the control channel: for a representable message, the receiver
   rebuilds the same target, attribute and values from the sender's frames.
   */
  lemma DecodeEncodeMessage(m: Message, fl: FloatLayout, rest: seq<Frame>)
    requires RepresentableMessage(m, fl)
    ensures DecodeMessage(EncodeMessage(m, fl) + rest, fl) == Some((m, rest))
  {
    var fs := EncodeMessage(m, fl) + rest;
    assert fs[2..] == EncodeSeq(m.values, fl) + rest;
    DecodeEncodeSeq(m.values, fl, rest);
    CStringOfStrBytes(m.target, []);
    CStringOfStrBytes(m.attribute, []);
    assert StrBytes(m.target) + [0] + [] == fs[0].data;
    assert StrBytes(m.attribute) + [0] + [] == fs[1].data;
  }

  /** Frames in `fs` whose "more" flag is cleared: each ends a multipart transport message. */
  function Ends(fs: seq<Frame>): (n: nat)
    ensures n <= |fs|
  {
    if |fs| == 0 then 0
    else (if fs[0].more then 0 else 1) + Ends(fs[1..])
  }

  /** The frames form exactly one multipart transport message. */
  ghost predicate OneTransportMessage(fs: seq<Frame>) {
    && |fs| > 0
    && !fs[|fs| - 1].more
    && forall j :: 0 <= j < |fs| - 1 ==> fs[j].more
  }

  /**
   Where the sender clears the "more" flag inside a sequence, counted from the
   values alone: once for every empty sequence and once for every non-empty
   sequence whose last element is not itself a sequence, at every depth.
   */
  function Breaks(vs: Values): nat
    decreases vs, 1
  {
    (if |vs| == 0 then 1 else if vs[|vs| - 1].Vals? then 0 else 1) + NestedBreaks(vs)
  }

  function NestedBreaks(vs: Values): nat
    decreases vs, 0
  {
    if |vs| == 0 then 0
    else (if vs[0].Vals? then Breaks(vs[0].vs) else 0) + NestedBreaks(vs[1..])
  }

  /**
   Nested sequences occur only as the last element, at every depth: the shapes the
   sender keeps within a single multipart message.
   */
  predicate NestsOnlyLast(vs: Values)
    decreases vs
  {
    && (forall k :: 0 <= k < |vs| - 1 ==> !vs[k].Vals?)
    && (|vs| > 0 && vs[|vs| - 1].Vals? ==> NestsOnlyLast(vs[|vs| - 1].vs))
  }

  lemma {:induction false} EndsAppend(a: seq<Frame>, b: seq<Frame>)
    ensures Ends(a + b) == Ends(a) + Ends(b)
    decreases |a|
  {
    if |a| == 0 {
      assert a + b == b;
    } else {
      assert (a + b)[1..] == a[1..] + b;
      EndsAppend(a[1..], b);
    }
  }

  /** A run of frames whose last frame ends a message is one message exactly when no other frame does. */
  lemma OneTransportMessageEnds(fs: seq<Frame>)
    requires |fs| > 0 && !fs[|fs| - 1].more
    ensures OneTransportMessage(fs) <==> Ends(fs) == 1
  {
    var n := |fs| - 1;
    assert fs == fs[..n] + [fs[n]];
    EndsAppend(fs[..n], [fs[n]]);
    assert Ends([fs[n]]) == 1;
    NoEnds(fs[..n]);
  }

  lemma {:induction false} NoEnds(fs: seq<Frame>)
    ensures Ends(fs) == 0 <==> forall j :: 0 <= j < |fs| ==> fs[j].more
    decreases |fs|
  {
    if |fs| > 0 {
      NoEnds(fs[1..]);
      if Ends(fs) == 0 {
        forall j | 0 <= j < |fs|
          ensures fs[j].more
        {
          if j > 0 {
            assert fs[j] == fs[1..][j - 1];
          }
        }
      }
    }
  }

  /** The sender clears the "more" flag exactly at the places `Breaks` counts. */
  lemma {:induction false} EndsEncodeSeq(vs: Values, fl: FloatLayout)
    ensures Ends(EncodeSeq(vs, fl)) == Breaks(vs)
    decreases vs, 1
  {
    var fs := EncodeSeq(vs, fl);
    assert fs[1..] == EncodeElems(vs, fl);
    EndsEncodeElems(vs, fl);
  }

  lemma {:induction false} EndsEncodeElems(vs: Values, fl: FloatLayout)
    ensures Ends(EncodeElems(vs, fl))
         == NestedBreaks(vs) + (if |vs| > 0 && !vs[|vs| - 1].Vals? then 1 else 0)
    decreases vs, 0
  {
    if |vs| > 0 {
      var v := vs[0];
      var head := EncodeElem(v, |vs| == 1, fl);
      EndsAppend(head, EncodeElems(vs[1..], fl));
      EndsEncodeElems(vs[1..], fl);
      assert head[1..] == if v.Vals? then EncodeSeq(v.vs, fl) else [Frame(Payload(v, fl), |vs| != 1)];
      if v.Vals? {
        EndsEncodeSeq(v.vs, fl);
      }
      if |vs| > 1 {
        assert vs[|vs| - 1] == vs[1..][|vs| - 2];
      }
    }
  }

  /** Every sequence contains at least one place where the "more" flag is cleared. */
  lemma {:induction false} BreaksPositive(vs: Values)
    ensures Breaks(vs) >= 1
    decreases vs
  {
    if |vs| > 0 && vs[|vs| - 1].Vals? {
      NestedBreaksSnoc(vs);
      BreaksPositive(vs[|vs| - 1].vs);
    }
  }

  lemma {:induction false} NestedBreaksSnoc(vs: Values)
    requires |vs| > 0
    ensures NestedBreaks(vs) == NestedBreaks(vs[..|vs| - 1])
                              + (if vs[|vs| - 1].Vals? then Breaks(vs[|vs| - 1].vs) else 0)
    decreases |vs|
  {
    if |vs| > 1 {
      NestedBreaksSnoc(vs[1..]);
      assert vs[1..][..|vs| - 2] == vs[..|vs| - 1][1..];
    }
  }

  /** No nested sequence anywhere in `vs` exactly when nothing nested breaks the message. */
  lemma {:induction false} NoNestedBreaks(vs: Values)
    ensures NestedBreaks(vs) == 0 <==> forall k :: 0 <= k < |vs| ==> !vs[k].Vals?
    decreases |vs|
  {
    if |vs| > 0 {
      NoNestedBreaks(vs[1..]);
      if vs[0].Vals? {
        BreaksPositive(vs[0].vs);
      }
      if NestedBreaks(vs) == 0 {
        forall k | 0 <= k < |vs|
          ensures !vs[k].Vals?
        {
          if k > 0 {
            assert vs[k] == vs[1..][k - 1];
          }
        }
      }
    }
  }

  /** The values alone decide whether their frames break nowhere but at the end. */
  lemma {:induction false} SingleBreak(vs: Values)
    ensures Breaks(vs) == 1 <==> NestsOnlyLast(vs)
    decreases vs
  {
    if |vs| > 0 {
      var n := |vs| - 1;
      NoNestedBreaks(vs);
      NoNestedBreaks(vs[..n]);
      NestedBreaksSnoc(vs);
      if vs[n].Vals? {
        SingleBreak(vs[n].vs);
        BreaksPositive(vs[n].vs);
      }
      assert (forall k :: 0 <= k < n ==> !vs[k].Vals?) <==> (forall k :: 0 <= k < n ==> !vs[..n][k].Vals?);
    }
  }

  /** The last frame of an encoded sequence always ends the multipart message. */
  lemma {:induction false} LastFrameEnds(vs: Values, fl: FloatLayout)
    ensures var fs := EncodeSeq(vs, fl); !fs[|fs| - 1].more
    decreases vs, 1
  {
    if |vs| > 0 {
      LastElemFrameEnds(vs, fl);
    }
  }

  lemma {:induction false} LastElemFrameEnds(vs: Values, fl: FloatLayout)
    requires |vs| > 0
    ensures var fs := EncodeElems(vs, fl); |fs| > 0 && !fs[|fs| - 1].more
    decreases vs, 0
  {
    var v := vs[0];
    var fs := EncodeElems(vs, fl);
    var tail := EncodeElems(vs[1..], fl);
    if |vs| > 1 {
      LastElemFrameEnds(vs[1..], fl);
      assert fs[|fs| - 1] == tail[|tail| - 1];
    } else {
      assert fs == EncodeElem(v, true, fl);
      if v.Vals? {
        LastFrameEnds(v.vs, fl);
        var inner := EncodeSeq(v.vs, fl);
        assert fs[|fs| - 1] == inner[|inner| - 1];
      }
    }
  }

  /**
   The frames of a sequence form one multipart transport message exactly when
   nested sequences occur only in last position; otherwise a receiver that
   honours the flag sees the values split across messages.
   */
  lemma OneMessageIffNestsOnlyLast(vs: Values, fl: FloatLayout)
    ensures OneTransportMessage(EncodeSeq(vs, fl)) <==> NestsOnlyLast(vs)
  {
    LastFrameEnds(vs, fl);
    OneTransportMessageEnds(EncodeSeq(vs, fl));
    EndsEncodeSeq(vs, fl);
    SingleBreak(vs);
  }

  /** A nested sequence before the last element clears the flag before the last frame. */
  lemma EarlyNestedSequenceSplits(vs: Values, k: nat, fl: FloatLayout)
    requires k < |vs| - 1 && vs[k].Vals?
    ensures var fs := EncodeSeq(vs, fl);
      exists j :: 0 <= j < |fs| - 1 && !fs[j].more
  {
    OneMessageIffNestsOnlyLast(vs, fl);
    LastFrameEnds(vs, fl);
  }

  /**
   Layout of the head of a message: each name is its bytes plus one trailing NUL,
   with more parts to follow, and the values start with a four-byte count frame.
   */
  lemma MessageLayout(m: Message, fl: FloatLayout)
    requires |m.values| < 0x8000_0000
    ensures var fs := EncodeMessage(m, fl);
      && |fs| >= 3
      && |fs[0].data| == |m.target| + 1 && fs[0].data[|m.target|] == 0 && fs[0].more
      && |fs[1].data| == |m.attribute| + 1 && fs[1].data[|m.attribute|] == 0 && fs[1].more
      && |fs[2].data| == 4 && Int32Of(fs[2].data) == |m.values|
      && (fs[2].more <==> |m.values| > 0)
  {
    Int32OfLe32(|m.values|);
  }

  /**
   Layout of one element: a four-byte tag frame with more parts to follow, then
   either the frames of the nested sequence or a single payload frame that the
   receiver reads back as the element; a string payload is one byte longer than
   the string and ends in NUL.
   */
  lemma ElementLayout(v: Value, last: bool, fl: FloatLayout)
    requires Representable(v, fl)
    ensures var fs := EncodeElem(v, last, fl);
      && |fs[0].data| == 4 && Int32Of(fs[0].data) == TagOf(v) && fs[0].more
      && (v.Vals? ==> fs[1..] == EncodeSeq(v.vs, fl))
      && (!v.Vals? ==> |fs| == 2 && DecodeScalar(TagOf(v), fs[1].data, fl) == Element(v) && fs[1].more == !last)
      && (v.Str? ==> |fs[1].data| == |v.s| + 1 && fs[1].data[|v.s|] == 0)
  {
    TagRoundTrip(v);
    if !v.Vals? {
      DecodeScalarPayload(v, fl);
    }
  }

  /** Frames of several messages sent one after the other. */
  function EncodeStream(ms: seq<Message>, fl: FloatLayout): seq<Frame> {
    if |ms| == 0 then [] else EncodeMessage(ms[0], fl) + EncodeStream(ms[1..], fl)
  }

  /**
   The receive loop: reads messages one after the other until the frames run out
   or a message cannot be read.
   */
  function DecodeStream(fs: seq<Frame>, fl: FloatLayout): seq<Message>
    decreases |fs|
  {
    match DecodeMessage(fs, fl)
    case None => []
    case Some((m, rest)) => [m] + DecodeStream(rest, fl)
  }

  /** The receiver hands over the sent messages intact and in the order they were sent. */
  lemma {:induction false} DecodeEncodeStream(ms: seq<Message>, fl: FloatLayout)
    requires forall k :: 0 <= k < |ms| ==> RepresentableMessage(ms[k], fl)
    ensures DecodeStream(EncodeStream(ms, fl), fl) == ms
  {
    if |ms| > 0 {
      DecodeEncodeMessage(ms[0], fl, EncodeStream(ms[1..], fl));
      DecodeEncodeStream(ms[1..], fl);
    }
  }
}

=== FILE: controller.dfy ===
/**
 Queries and updates of the object tree by controllers
 (src/controller/controller.cpp).

 The tree has one branch per root (the "world" and each scene), in branch
 order. Under a root, each object has a type leaf, attribute leaves, and the
 names of its children and parents. Updates that cannot be applied to a leaf
 are queued as commands for the root to run later.
 */
module Controller {

  import opened Wrappers
  import opened ValueTypes
  import Seqs

  datatype ObjectNode = ObjectNode(
    name: string,
    objType: Option<string>,
    attributes: map<string, Values>,
    children: seq<string>,
    parents: seq<string>)

  datatype RootNode = RootNode(name: string, objects: seq<ObjectNode>, attributes: map<string, Values>)

  /** The roots, in branch order. */
  type Tree = seq<RootNode>

  datatype CommandKind = CallRoot | CallObject

  /** A command queued for root `target`. */
  datatype Command = Command(target: string, kind: CommandKind, args: Values)

  datatype ControllerState = ControllerState(tree: Tree, commands: seq<Command>)

  function Names(objs: seq<ObjectNode>): (ns: seq<string>)
    ensures |ns| == |objs| && forall k :: 0 <= k < |objs| ==> ns[k] == objs[k].name
  {
    seq(|objs|, k requires 0 <= k < |objs| => objs[k].name)
  }

  lemma NamesAppend(a: seq<ObjectNode>, b: seq<ObjectNode>)
    ensures Names(a + b) == Names(a) + Names(b)
  {
  }

  /** The objects of all roots, in branch order then object order. */
  function AllObjects(tree: Tree): seq<ObjectNode> {
    if |tree| == 0 then [] else AllObjects(tree[..|tree| - 1]) + tree[|tree| - 1].objects
  }

  /** Appending one element to what `DedupInto` has already collected. */
  lemma DedupIntoSnoc(acc: seq<string>, s: seq<string>, x: string)
    ensures var d := Seqs.DedupInto(acc, s);
      Seqs.DedupInto(acc, s + [x]) == if x in d then d else d + [x]
  {
    Seqs.DedupIntoAppend(acc, s, [x]);
  }

  /** One more object of a root extends the names seen by its name. */
  lemma NamesSnoc(seen: seq<string>, objs: seq<ObjectNode>, k: nat)
    requires k < |objs|
    ensures seen + Names(objs[..k + 1]) == (seen + Names(objs[..k])) + [objs[k].name]
  {
    assert objs[..k + 1] == objs[..k] + [objs[k]];
    NamesAppend(objs[..k], [objs[k]]);
  }

  /** One more root extends the names seen by the names of its objects. */
  lemma AllObjectsSnoc(tree: Tree, r: nat)
    requires r < |tree|
    ensures Names(AllObjects(tree[..r + 1])) == Names(AllObjects(tree[..r])) + Names(tree[r].objects)
  {
    assert tree[..r + 1][..r] == tree[..r];
    NamesAppend(AllObjects(tree[..r]), tree[r].objects);
  }

  /**
   The names of all objects, each once, in the order first seen across the
   roots: the loops of `getObjectNames`.
   */
  method GetObjectNames(tree: Tree) returns (names: seq<string>)
    ensures names == Seqs.Dedup(Names(AllObjects(tree)))
    ensures Seqs.NoDups(names)
    ensures forall x :: x in names <==> x in Names(AllObjects(tree))
    ensures Seqs.FirstSeenOrder(Names(AllObjects(tree)), names)
  {
    names := [];
    var r := 0;
    while r < |tree|
      invariant 0 <= r <= |tree|
      invariant names == Seqs.DedupInto([], Names(AllObjects(tree[..r])))
    {
      var objs := tree[r].objects;
      ghost var seen := Names(AllObjects(tree[..r]));
      var k := 0;
      assert seen + Names(objs[..0]) == seen;
      while k < |objs|
        invariant 0 <= k <= |objs|
        invariant names == Seqs.DedupInto([], seen + Names(objs[..k]))
      {
        NamesSnoc(seen, objs, k);
        DedupIntoSnoc([], seen + Names(objs[..k]), objs[k].name);
        if objs[k].name !in names {
          names := names + [objs[k].name];
        }
        k := k + 1;
      }
      assert objs[..k] == objs;
      AllObjectsSnoc(tree, r);
      r := r + 1;
    }
    assert tree[..r] == tree;
    Seqs.DedupSpec(Names(AllObjects(tree)));
  }

  /** The links of one object: its children, or its parents for the reversed links. */
  function Linked(obj: ObjectNode, reversed: bool): seq<string> {
    if reversed then obj.parents else obj.children
  }

  /** One step of `getObjectLinks`: make sure the object has an entry, then add its new links. */
  function AddLinks(links: map<string, seq<string>>, obj: ObjectNode, reversed: bool): map<string, seq<string>> {
    var known := if obj.name in links then links[obj.name] else [];
    links[obj.name := Seqs.DedupInto(known, Linked(obj, reversed))]
  }

  function LinksFold(links: map<string, seq<string>>, objs: seq<ObjectNode>, reversed: bool): map<string, seq<string>>
    decreases |objs|
  {
    if |objs| == 0 then links else LinksFold(AddLinks(links, objs[0], reversed), objs[1..], reversed)
  }

  /**
   `getObjectLinks` (children) and `getObjectReversedLinks` (parents): one entry
   per object name, holding the links gathered over all roots.
   */
  function GetObjectLinks(tree: Tree, reversed: bool): map<string, seq<string>> {
    LinksFold(map[], AllObjects(tree), reversed)
  }

  /** All links of the objects named `o`, in order, repeats included. */
  function LinksOf(objs: seq<ObjectNode>, o: string, reversed: bool): seq<string>
    decreases |objs|
  {
    if |objs| == 0 then []
    else (if objs[0].name == o then Linked(objs[0], reversed) else []) + LinksOf(objs[1..], o, reversed)
  }

  lemma {:induction false} LinksFoldSpec(links: map<string, seq<string>>, objs: seq<ObjectNode>, reversed: bool, o: string)
    ensures var r := LinksFold(links, objs, reversed);
      && (o in r <==> o in links || o in Names(objs))
      && (o in r ==> r[o] == Seqs.DedupInto(if o in links then links[o] else [], LinksOf(objs, o, reversed)))
    decreases |objs|
  {
    if |objs| == 0 {
      assert LinksOf(objs, o, reversed) == [];
    } else {
      var x := objs[0];
      var links' := AddLinks(links, x, reversed);
      LinksFoldSpec(links', objs[1..], reversed, o);
      assert Names(objs) == [x.name] + Names(objs[1..]);
      if x.name == o {
        Seqs.DedupIntoAppend(if o in links then links[o] else [], Linked(x, reversed), LinksOf(objs[1..], o, reversed));
      } else {
        assert LinksOf(objs, o, reversed) == LinksOf(objs[1..], o, reversed);
      }
    }
  }

  /**
   Every object of any root has an entry, possibly empty, and nothing else has
   one. An entry lists each link of every object of that name exactly once, in
   the order first seen across the roots.
   */
  lemma GetObjectLinksSpec(tree: Tree, reversed: bool, o: string)
    ensures var links := GetObjectLinks(tree, reversed);
      var all := LinksOf(AllObjects(tree), o, reversed);
      && (o in links <==> o in Names(AllObjects(tree)))
      && (o in links ==> && links[o] == Seqs.Dedup(all)
                         && Seqs.NoDups(links[o])
                         && (forall x :: x in links[o] <==> x in all)
                         && Seqs.FirstSeenOrder(all, links[o]))
  {
    LinksFoldSpec(map[], AllObjects(tree), reversed, o);
    Seqs.DedupSpec(LinksOf(AllObjects(tree), o, reversed));
  }

  /** The objects of the world root, or none when the tree has no world. */
  function WorldObjects(tree: Tree): seq<ObjectNode> {
    if |tree| == 0 then []
    else if tree[|tree| - 1].name == "world" then tree[|tree| - 1].objects
    else WorldObjects(tree[..|tree| - 1])
  }

  /** The objects of all roots but the world, in branch order. */
  function SceneObjects(tree: Tree): seq<ObjectNode> {
    if |tree| == 0 then []
    else SceneObjects(tree[..|tree| - 1]) + (if tree[|tree| - 1].name == "world" then [] else tree[|tree| - 1].objects)
  }

  /** Every object has a type leaf, as `getObjectTypes` asserts. */
  ghost predicate Typed(objs: seq<ObjectNode>) {
    forall k :: 0 <= k < |objs| ==> objs[k].objType.Some?
  }

  /** Records the type of each object in turn; a later object overwrites an earlier one of the same name. */
  function TypeFold(types: map<string, string>, objs: seq<ObjectNode>): map<string, string>
    requires Typed(objs)
  {
    if |objs| == 0 then types
    else
      var last := objs[|objs| - 1];
      TypeFold(types, objs[..|objs| - 1])[last.name := last.objType.value]
  }

  /** `getObjectTypes`: scenes first, in branch order, then the world. */
  function GetObjectTypes(tree: Tree): map<string, string>
    requires Typed(SceneObjects(tree)) && Typed(WorldObjects(tree))
  {
    TypeFold(TypeFold(map[], SceneObjects(tree)), WorldObjects(tree))
  }

  /** Position of the last object named `o`, or -1. */
  function LastIndexOf(objs: seq<ObjectNode>, o: string): (i: int)
    ensures -1 <= i < |objs|
    ensures i >= 0 ==> objs[i].name == o
    ensures forall k :: i < k < |objs| ==> objs[k].name != o
    ensures i == -1 <==> o !in Names(objs)
  {
    if |objs| == 0 then -1
    else if objs[|objs| - 1].name == o then |objs| - 1
    else
      assert Names(objs) == Names(objs[..|objs| - 1]) + [objs[|objs| - 1].name];
      LastIndexOf(objs[..|objs| - 1], o)
  }

  lemma {:induction false} TypeFoldSpec(types: map<string, string>, objs: seq<ObjectNode>, o: string)
    requires Typed(objs)
    ensures var r := TypeFold(types, objs);
      var i := LastIndexOf(objs, o);
      && (o in r <==> o in types || i >= 0)
      && (i >= 0 ==> r[o] == objs[i].objType.value)
      && (i < 0 && o in types ==> r[o] == types[o])
    decreases |objs|
  {
    if |objs| > 0 {
      TypeFoldSpec(types, objs[..|objs| - 1], o);
    }
  }

  /**
   Every object of any root gets a type. For an object of the world that is its
   world type, whatever the scenes say; otherwise it is the type under the last
   scene, in branch order, that has the object.
   */
  lemma WorldTypesOverride(tree: Tree, o: string)
    requires Typed(SceneObjects(tree)) && Typed(WorldObjects(tree))
    ensures var types := GetObjectTypes(tree);
      var w := LastIndexOf(WorldObjects(tree), o);
      var s := LastIndexOf(SceneObjects(tree), o);
      && (o in types <==> w >= 0 || s >= 0)
      && (w >= 0 ==> types[o] == WorldObjects(tree)[w].objType.value)
      && (w < 0 && s >= 0 ==> types[o] == SceneObjects(tree)[s].objType.value)
  {
    TypeFoldSpec(map[], SceneObjects(tree), o);
    TypeFoldSpec(TypeFold(map[], SceneObjects(tree)), WorldObjects(tree), o);
  }

  /** Position of the object named `name` under a root, or the number of objects. */
  function FindObject(objs: seq<ObjectNode>, name: string): (i: nat)
    ensures i <= |objs|
    ensures i < |objs| ==> objs[i].name == name
    ensures forall k :: 0 <= k < i ==> objs[k].name != name
  {
    if |objs| == 0 then 0
    else if objs[0].name == name then 0
    else 1 + FindObject(objs[1..], name)
  }

  /** The tree has a leaf at `/<root>/objects/<name>/attributes/<attr>`. */
  predicate HasAttr(root: RootNode, name: string, attr: string) {
    var i := FindObject(root.objects, name);
    i < |root.objects| && attr in root.objects[i].attributes
  }

  function AttrLeaf(root: RootNode, name: string, attr: string): Values
    requires HasAttr(root, name, attr)
  {
    root.objects[FindObject(root.objects, name)].attributes[attr]
  }

  /** First root, in branch order, with the leaf; the number of roots when none has it. */
  function FirstRootWith(tree: Tree, name: string, attr: string): (i: nat)
    ensures i <= |tree|
    ensures i < |tree| ==> HasAttr(tree[i], name, attr)
    ensures forall j :: 0 <= j < i ==> !HasAttr(tree[j], name, attr)
  {
    if |tree| == 0 then 0
    else if HasAttr(tree[0], name, attr) then 0
    else 1 + FirstRootWith(tree[1..], name, attr)
  }

  /** A root with the leaf and no earlier root with it is the one FirstRootWith finds. */
  lemma FirstRootWithUnique(tree: Tree, name: string, attr: string)
    ensures forall i :: 0 <= i < |tree| && HasAttr(tree[i], name, attr)
                        && (forall j :: 0 <= j < i ==> !HasAttr(tree[j], name, attr))
                        ==> i == FirstRootWith(tree, name, attr)
  {
  }

  /** `getObjectAttribute`: the leaf of the first root that has it, or nothing. */
  function GetObjectAttribute(tree: Tree, name: string, attr: string): (r: Values)
    ensures (forall j :: 0 <= j < |tree| ==> !HasAttr(tree[j], name, attr)) ==> r == []
    ensures forall i :: 0 <= i < |tree| && HasAttr(tree[i], name, attr)
                        && (forall j :: 0 <= j < i ==> !HasAttr(tree[j], name, attr))
                        ==> r == AttrLeaf(tree[i], name, attr)
  {
    FirstRootWithUnique(tree, name, attr);
    var i := FirstRootWith(tree, name, attr);
    if i < |tree| then AttrLeaf(tree[i], name, attr) else []
  }

  /**
   `getObjectAlias`: the alias from the first root with an alias leaf for the
   object; the object's own name when that alias is empty; the empty string
   when no root has one.
   */
  function GetObjectAlias(tree: Tree, name: string, cv: Conversions): (r: string)
    ensures (forall j :: 0 <= j < |tree| ==> !HasAttr(tree[j], name, "alias")) ==> r == ""
    ensures forall i :: 0 <= i < |tree| && HasAttr(tree[i], name, "alias")
                        && (forall j :: 0 <= j < i ==> !HasAttr(tree[j], name, "alias"))
                        ==> var a := AttrLeaf(tree[i], name, "alias");
                            r == if |a| == 0 then name else cv.asString(a[0])
  {
    FirstRootWithUnique(tree, name, "alias");
    var i := FirstRootWith(tree, name, "alias");
    if i == |tree| then ""
    else
      var a := AttrLeaf(tree[i], name, "alias");
      if |a| == 0 then name else cv.asString(a[0])
  }

  /** Position of the root named `root`, or the number of roots. */
  function FindRoot(tree: Tree, root: string): (i: nat)
    ensures i <= |tree|
    ensures i < |tree| ==> tree[i].name == root
    ensures forall k :: 0 <= k < i ==> tree[k].name != root
  {
    if |tree| == 0 then 0
    else if tree[0].name == root then 0
    else 1 + FindRoot(tree[1..], root)
  }

  /** The tree has a leaf at `/world/attributes/<name>`. */
  predicate HasWorldAttr(tree: Tree, name: string) {
    var w := FindRoot(tree, "world");
    w < |tree| && name in tree[w].attributes
  }

  /**
   `setWorldAttribute`: sets the world attribute leaf when it exists, otherwise
   queues one `callRoot` command for the world; never both.
   */
  function SetWorldAttribute(st: ControllerState, name: string, values: Values): (st': ControllerState)
    ensures HasWorldAttr(st.tree, name) ==>
      && st'.commands == st.commands
      && |st'.tree| == |st.tree|
      && var w := FindRoot(st.tree, "world");
         && st'.tree[w].attributes == st.tree[w].attributes[name := values]
         && st'.tree[w].name == st.tree[w].name && st'.tree[w].objects == st.tree[w].objects
         && forall k :: 0 <= k < |st.tree| && k != w ==> st'.tree[k] == st.tree[k]
    ensures !HasWorldAttr(st.tree, name) ==>
      && st'.tree == st.tree
      && st'.commands == st.commands + [Command("world", CallRoot, [Str(name), Vals(values)])]
  {
    if HasWorldAttr(st.tree, name) then
      var w := FindRoot(st.tree, "world");
      var root := st.tree[w];
      st.(tree := st.tree[w := root.(attributes := root.attributes[name := values])])
    else
      st.(commands := st.commands + [Command("world", CallRoot, [Str(name), Vals(values)])])
  }

  /** Reads `/world/attributes/<name>`, or nothing. */
  function GetWorldAttribute(tree: Tree, name: string): Values {
    if HasWorldAttr(tree, name) then tree[FindRoot(tree, "world")].attributes[name] else []
  }

  /**
   After `setWorldAttribute`, either the world leaf reads back the new values
   and no command was queued, or the tree is untouched and the queue holds one
   more command carrying the name and values.
   */
  lemma SetWorldAttributeEffect(st: ControllerState, name: string, values: Values)
    ensures var st' := SetWorldAttribute(st, name, values);
      || (GetWorldAttribute(st'.tree, name) == values && st'.commands == st.commands)
      || (st'.tree == st.tree && |st'.commands| == |st.commands| + 1
          && st'.commands[|st.commands|].args == [Str(name), Vals(values)])
  {
    var st' := SetWorldAttribute(st, name, values);
    if HasWorldAttr(st.tree, name) {
      var w := FindRoot(st.tree, "world");
      assert forall k :: 0 <= k < w ==> st'.tree[k].name == st.tree[k].name;
      assert FindRoot(st'.tree, "world") == w by {
        FindRootSameNames(st.tree, st'.tree, "world");
      }
    }
  }

  /** Roots with the same names in the same order are found at the same place. */
  lemma {:induction false} FindRootSameNames(a: Tree, b: Tree, root: string)
    requires |a| == |b| && forall k :: 0 <= k < |a| ==> a[k].name == b[k].name
    ensures FindRoot(a, root) == FindRoot(b, root)
    decreases |a|
  {
    if |a| > 0 && a[0].name != root {
      FindRootSameNames(a[1..], b[1..], root);
    }
  }

  /**
   Sets leaf `attr` of object `name` under one root, if the root has that leaf:
   that leaf reads back the new values, every other leaf keeps its values, and
   no leaf is created or removed.
   */
  function SetInRoot(root: RootNode, name: string, attr: string, values: Values): (r: RootNode)
    ensures r.name == root.name && r.attributes == root.attributes && Names(r.objects) == Names(root.objects)
    ensures forall other, a :: HasAttr(r, other, a) <==> HasAttr(root, other, a)
    ensures HasAttr(root, name, attr) ==> AttrLeaf(r, name, attr) == values
    ensures forall other, a :: (other != name || a != attr) && HasAttr(root, other, a) ==>
      AttrLeaf(r, other, a) == AttrLeaf(root, other, a)
  {
    if HasAttr(root, name, attr) then
      var i := FindObject(root.objects, name);
      var obj := root.objects[i];
      var r := root.(objects := root.objects[i := obj.(attributes := obj.attributes[attr := values])]);
      assert Names(r.objects) == Names(root.objects);
      assert forall other :: FindObject(r.objects, other) == FindObject(root.objects, other) by {
        forall other
          ensures FindObject(r.objects, other) == FindObject(root.objects, other)
        {
          FindObjectSameNames(root.objects, r.objects, other);
        }
      }
      r
    else root
  }

  /**
   `setObjectAttribute`: under every root that has the leaf it now reads back
   the new values; every other leaf keeps its values, and no leaf is created.
   */
  function SetObjectAttribute(tree: Tree, name: string, attr: string, values: Values): (r: Tree)
    ensures |r| == |tree|
    ensures forall k :: 0 <= k < |tree| ==>
      r[k].name == tree[k].name && r[k].attributes == tree[k].attributes
      && Names(r[k].objects) == Names(tree[k].objects)
    ensures forall k, other, a :: 0 <= k < |tree| ==> (HasAttr(r[k], other, a) <==> HasAttr(tree[k], other, a))
    ensures forall k :: 0 <= k < |tree| && HasAttr(tree[k], name, attr) ==> AttrLeaf(r[k], name, attr) == values
    ensures forall k, other, a :: 0 <= k < |tree| && (other != name || a != attr) && HasAttr(tree[k], other, a) ==>
      AttrLeaf(r[k], other, a) == AttrLeaf(tree[k], other, a)
  {
    seq(|tree|, k requires 0 <= k < |tree| => SetInRoot(tree[k], name, attr, values))
  }

  lemma {:induction false} FindObjectSameNames(a: seq<ObjectNode>, b: seq<ObjectNode>, name: string)
    requires Names(a) == Names(b)
    ensures FindObject(a, name) == FindObject(b, name)
    decreases |a|
  {
    if |a| > 0 && a[0].name != name {
      assert a[0].name == Names(a)[0] == Names(b)[0] == b[0].name;
      assert Names(a[1..]) == Names(a)[1..] == Names(b)[1..] == Names(b[1..]);
      FindObjectSameNames(a[1..], b[1..], name);
    } else if |a| > 0 {
      assert b[0].name == Names(b)[0] == Names(a)[0];
    }
  }

  /** Trees whose roots have the same leaves at `name`/`attr` have the same first root with it. */
  lemma {:induction false} FirstRootWithSame(a: Tree, b: Tree, name: string, attr: string)
    requires |a| == |b| && forall k :: 0 <= k < |a| ==> (HasAttr(a[k], name, attr) <==> HasAttr(b[k], name, attr))
    ensures FirstRootWith(a, name, attr) == FirstRootWith(b, name, attr)
    decreases |a|
  {
    if |a| > 0 && !HasAttr(a[0], name, attr) {
      FirstRootWithSame(a[1..], b[1..], name, attr);
    }
  }

  /** After `setObjectAttribute`, reading the attribute back yields the new values if any root had it. */
  lemma SetThenGetObjectAttribute(tree: Tree, name: string, attr: string, values: Values)
    requires exists k :: 0 <= k < |tree| && HasAttr(tree[k], name, attr)
    ensures GetObjectAttribute(SetObjectAttribute(tree, name, attr, values), name, attr) == values
  {
    var r := SetObjectAttribute(tree, name, attr, values);
    FirstRootWithSame(tree, r, name, attr);
    var i := FirstRootWith(tree, name, attr);
    assert AttrLeaf(r[i], name, attr) == values;
  }

  /**
   What `setObjectsOfType` does to one object of root `root`: an object of the
   requested type has its leaf set when it exists, or a `callObject` command is
   queued for it; objects without a type leaf or of another type are skipped.
   */
  function SetOrEnqueue(root: string, obj: ObjectNode, objType: string, attr: string, values: Values): (r: (ObjectNode, seq<Command>))
    ensures r.0.name == obj.name && r.0.objType == obj.objType
    ensures obj.objType != Some(objType) ==> r == (obj, [])
    ensures obj.objType == Some(objType) && attr in obj.attributes ==>
      r == (obj.(attributes := obj.attributes[attr := values]), [])
    ensures obj.objType == Some(objType) && attr !in obj.attributes ==>
      r == (obj, [Command(root, CallObject, [Str(obj.name), Str(attr), Vals(values)])])
  {
    if obj.objType != Some(objType) then (obj, [])
    else if attr in obj.attributes then (obj.(attributes := obj.attributes[attr := values]), [])
    else (obj, [Command(root, CallObject, [Str(obj.name), Str(attr), Vals(values)])])
  }

  function SetObjectsInRoot(root: string, objs: seq<ObjectNode>, objType: string, attr: string, values: Values): (r: (seq<ObjectNode>, seq<Command>))
    ensures |r.0| == |objs|
    ensures forall k :: 0 <= k < |objs| ==> r.0[k] == SetOrEnqueue(root, objs[k], objType, attr, values).0
    decreases |objs|
  {
    if |objs| == 0 then ([], [])
    else
      var (o, c) := SetOrEnqueue(root, objs[0], objType, attr, values);
      var (os, cs) := SetObjectsInRoot(root, objs[1..], objType, attr, values);
      ([o] + os, c + cs)
  }

  /** `setObjectsOfType` over all roots, in branch order. */
  function SetObjectsOfType(tree: Tree, objType: string, attr: string, values: Values): (r: (Tree, seq<Command>))
    ensures |r.0| == |tree|
    ensures forall k :: 0 <= k < |tree| ==>
      r.0[k] == tree[k].(objects := SetObjectsInRoot(tree[k].name, tree[k].objects, objType, attr, values).0)
    decreases |tree|
  {
    if |tree| == 0 then ([], [])
    else
      var (os, cs) := SetObjectsInRoot(tree[0].name, tree[0].objects, objType, attr, values);
      var (rest, more) := SetObjectsOfType(tree[1..], objType, attr, values);
      ([tree[0].(objects := os)] + rest, cs + more)
  }

  /** Objects of a root that `setObjectsOfType` queues a command for: the requested type, no leaf. */
  ghost predicate NeedsCommand(obj: ObjectNode, objType: string, attr: string) {
    obj.objType == Some(objType) && attr !in obj.attributes
  }

  /** The objects of `objs` that need a command, in order. */
  ghost function Needing(objs: seq<ObjectNode>, objType: string, attr: string): seq<ObjectNode>
    decreases |objs|
  {
    if |objs| == 0 then []
    else (if NeedsCommand(objs[0], objType, attr) then [objs[0]] else []) + Needing(objs[1..], objType, attr)
  }

  /** One `callObject` command for root `root` per object of `ns`, in order. */
  ghost function CallObjects(root: string, ns: seq<ObjectNode>, attr: string, values: Values): seq<Command> {
    seq(|ns|, k requires 0 <= k < |ns| => Command(root, CallObject, [Str(ns[k].name), Str(attr), Vals(values)]))
  }

  lemma CallObjectsAppend(root: string, a: seq<ObjectNode>, b: seq<ObjectNode>, attr: string, values: Values)
    ensures CallObjects(root, a + b, attr, values) == CallObjects(root, a, attr, values) + CallObjects(root, b, attr, values)
  {
  }

  lemma {:induction false} RootCommands(root: string, objs: seq<ObjectNode>, objType: string, attr: string, values: Values)
    ensures SetObjectsInRoot(root, objs, objType, attr, values).1 == CallObjects(root, Needing(objs, objType, attr), attr, values)
    decreases |objs|
  {
    if |objs| > 0 {
      RootCommands(root, objs[1..], objType, attr, values);
      var n0 := if NeedsCommand(objs[0], objType, attr) then [objs[0]] else [];
      CallObjectsAppend(root, n0, Needing(objs[1..], objType, attr), attr, values);
      assert SetOrEnqueue(root, objs[0], objType, attr, values).1 == CallObjects(root, n0, attr, values);
    }
  }

  /**
   The commands queued for one root are exactly one per object of the requested
   type lacking the leaf, in object order, each addressed to that root and
   naming the object.
   */
  lemma {:induction false} CommandsInRoot(root: string, objs: seq<ObjectNode>, objType: string, attr: string, values: Values)
    ensures var cs := SetObjectsInRoot(root, objs, objType, attr, values).1;
      && cs == CallObjects(root, Needing(objs, objType, attr), attr, values)
      && (forall c :: c in cs ==>
            c.target == root && c.kind == CallObject && |c.args| == 3
            && c.args[1] == Str(attr) && c.args[2] == Vals(values)
            && exists k :: 0 <= k < |objs| && NeedsCommand(objs[k], objType, attr) && c.args[0] == Str(objs[k].name))
      && (forall k :: 0 <= k < |objs| && NeedsCommand(objs[k], objType, attr) ==>
            Command(root, CallObject, [Str(objs[k].name), Str(attr), Vals(values)]) in cs)
    decreases |objs|
  {
    RootCommands(root, objs, objType, attr, values);
    if |objs| > 0 {
      CommandsInRoot(root, objs[1..], objType, attr, values);
      var cs := SetObjectsInRoot(root, objs, objType, attr, values).1;
      var c0 := SetOrEnqueue(root, objs[0], objType, attr, values).1;
      var rest := SetObjectsInRoot(root, objs[1..], objType, attr, values).1;
      assert cs == c0 + rest;
      forall c | c in cs
        ensures exists k :: 0 <= k < |objs| && NeedsCommand(objs[k], objType, attr) && c.args[0] == Str(objs[k].name)
      {
        if c in rest {
          var k :| 0 <= k < |objs[1..]| && NeedsCommand(objs[1..][k], objType, attr) && c.args[0] == Str(objs[1..][k].name);
          assert objs[k + 1] == objs[1..][k];
        }
      }
      forall k | 0 <= k < |objs| && NeedsCommand(objs[k], objType, attr)
        ensures Command(root, CallObject, [Str(objs[k].name), Str(attr), Vals(values)]) in cs
      {
        if k > 0 {
          assert objs[k] == objs[1..][k - 1];
        }
      }
    }
  }

  lemma {:induction false} SetObjectsOfTypeAppend(a: Tree, b: Tree, objType: string, attr: string, values: Values)
    ensures SetObjectsOfType(a + b, objType, attr, values).1
         == SetObjectsOfType(a, objType, attr, values).1 + SetObjectsOfType(b, objType, attr, values).1
    decreases |a|
  {
    if |a| == 0 {
      assert a + b == b;
    } else {
      assert (a + b)[0] == a[0] && (a + b)[1..] == a[1..] + b;
      SetObjectsOfTypeAppend(a[1..], b, objType, attr, values);
    }
  }

  /**
   The commands `setObjectsOfType` queues come root by root in branch order:
   those for one root, exactly its objects that need one, sit after the
   commands of every earlier root and before those of every later one.
   */
  lemma SetObjectsOfTypeCommands(before: Tree, root: RootNode, after: Tree, objType: string, attr: string, values: Values)
    ensures SetObjectsOfType(before + [root] + after, objType, attr, values).1
         == SetObjectsOfType(before, objType, attr, values).1
          + CallObjects(root.name, Needing(root.objects, objType, attr), attr, values)
          + SetObjectsOfType(after, objType, attr, values).1
  {
    SetObjectsOfTypeAppend(before + [root], after, objType, attr, values);
    SetObjectsOfTypeAppend(before, [root], objType, attr, values);
    CommandsInRoot(root.name, root.objects, objType, attr, values);
    assert [root][1..] == [];
  }

  /** A matching object that has the leaf reads back the new values; others keep all their attributes. */
  lemma SetObjectsOfTypeLeaves(tree: Tree, objType: string, attr: string, values: Values, k: nat, i: nat)
    requires k < |tree| && i < |tree[k].objects|
    ensures var obj := tree[k].objects[i];
      var obj' := SetObjectsOfType(tree, objType, attr, values).0[k].objects[i];
      && obj'.name == obj.name
      && (obj.objType == Some(objType) && attr in obj.attributes ==> obj'.attributes == obj.attributes[attr := values])
      && (!(obj.objType == Some(objType) && attr in obj.attributes) ==> obj' == obj)
  {
  }

  /** An object of the scene that owns the controller: its name and type. */
  datatype SceneObject = SceneObject(name: string, objType: string)

  /**
   `getObjectsOfType`: the scene's objects of the requested type, or all of them
   for the empty type; nothing when the controller's root is not a scene.
   */
  function GetObjectsOfType(scene: Option<seq<SceneObject>>, objType: string): (r: seq<SceneObject>)
    ensures scene.None? ==> r == []
    ensures scene.Some? ==> forall k :: 0 <= k < |r| ==> r[k] in scene.value && (r[k].objType == objType || objType == "")
    ensures scene.Some? ==>
      forall k :: 0 <= k < |scene.value| && (scene.value[k].objType == objType || objType == "") ==> scene.value[k] in r
  {
    if scene.None? then [] else Filter(scene.value, objType)
  }

  function Filter(objs: seq<SceneObject>, objType: string): (r: seq<SceneObject>)
    ensures forall k :: 0 <= k < |r| ==> r[k] in objs && (r[k].objType == objType || objType == "")
    ensures forall k :: 0 <= k < |objs| && (objs[k].objType == objType || objType == "") ==> objs[k] in r
    ensures |r| <= |objs|
  {
    if |objs| == 0 then []
    else (if objs[0].objType == objType || objType == "" then [objs[0]] else []) + Filter(objs[1..], objType)
  }

  /** The empty type selects every object of the scene, in order. */
  lemma {:induction false} EmptyTypeSelectsAll(objs: seq<SceneObject>)
    ensures GetObjectsOfType(Some(objs), "") == objs
    decreases |objs|
  {
    if |objs| > 0 {
      EmptyTypeSelectsAll(objs[1..]);
    }
  }
}

=== FILE: filter.dfy ===
/**
 The attribute logic of an image filter (src/graphics/filter.cpp): the clamped
 colour settings kept as shader uniforms, the colour curves, the output size and
 timestamp rules of rendering, and the uniforms a user shader exposes as
 attributes.

 Uniform names starting with '_' are the filter's own and are never exposed.
 Work the filter defers to its task queue is applied at once here.
 */
module Filter {

  import opened Wrappers
  import opened ValueTypes

  datatype Size = Size(width: int, height: int)

  datatype FilterState = FilterState(
    uniforms: map<string, Values>,
    attributes: set<string>,
    colorCurves: seq<Values>,
    sizeOverride: (int, int),
    shaderSource: string)

  function Clamp(x: real, lo: real, hi: real): (r: real)
    requires lo <= hi
    ensures lo <= r <= hi
    ensures lo <= x <= hi ==> r == x
    ensures x < lo ==> r == lo
    ensures hi < x ==> r == hi
  {
    if x < lo then lo else if hi < x then hi else x
  }

  /** Stores the first argument, clamped into [lo, hi], as the single value of `uniform`. */
  function SetClamped(st: FilterState, uniform: string, lo: real, hi: real, args: Values, cv: Conversions): (st': FilterState)
    requires lo <= hi && |args| >= 1
    ensures uniform in st'.uniforms && |st'.uniforms[uniform]| == 1 && st'.uniforms[uniform][0].Float?
    ensures lo <= st'.uniforms[uniform][0].f <= hi
    ensures lo <= cv.asFloat(args[0]) <= hi ==> st'.uniforms[uniform] == [Float(cv.asFloat(args[0]))]
    ensures forall u :: u in st.uniforms && u != uniform ==> u in st'.uniforms && st'.uniforms[u] == st.uniforms[u]
    ensures st'.uniforms.Keys == st.uniforms.Keys + {uniform}
    ensures st' == st.(uniforms := st'.uniforms)
  {
    st.(uniforms := st.uniforms[uniform := [Float(Clamp(cv.asFloat(args[0]), lo, hi))]])
  }

  /**
   A getter that first inserts `default` when the uniform is missing, then
   reports the uniform.
   */
  function GetWithDefault(st: FilterState, uniform: string, default: Values): (r: (Values, FilterState))
    ensures uniform in r.1.uniforms && r.0 == r.1.uniforms[uniform]
    ensures uniform in st.uniforms ==> r == (st.uniforms[uniform], st)
    ensures uniform !in st.uniforms ==> r.0 == default && r.1 == st.(uniforms := st.uniforms[uniform := default])
  {
    if uniform in st.uniforms then (st.uniforms[uniform], st)
    else (default, st.(uniforms := st.uniforms[uniform := default]))
  }

  function SetBrightness(st: FilterState, args: Values, cv: Conversions): FilterState
    requires |args| >= 1
  {
    SetClamped(st, "_brightness", 0.0, 2.0, args, cv)
  }

  function GetBrightness(st: FilterState): (Values, FilterState) {
    GetWithDefault(st, "_brightness", [Float(1.0)])
  }

  function SetContrast(st: FilterState, args: Values, cv: Conversions): FilterState
    requires |args| >= 1
  {
    SetClamped(st, "_contrast", 0.0, 2.0, args, cv)
  }

  function GetContrast(st: FilterState): (Values, FilterState) {
    GetWithDefault(st, "_contrast", [Float(1.0)])
  }

  function SetSaturation(st: FilterState, args: Values, cv: Conversions): FilterState
    requires |args| >= 1
  {
    SetClamped(st, "_saturation", 0.0, 2.0, args, cv)
  }

  function GetSaturation(st: FilterState): (Values, FilterState) {
    GetWithDefault(st, "_saturation", [Float(1.0)])
  }

  /**
   `colorTemperature`: clamped into [0, 16000]; the colour balance derived from
   it (by `balance`, floating-point colour math not modelled) is stored alongside.
   */
  function SetColorTemperature(st: FilterState, args: Values, cv: Conversions, balance: real -> (real, real)): (st': FilterState)
    requires |args| >= 1
    ensures "_colorTemperature" in st'.uniforms && "_colorBalance" in st'.uniforms
    ensures var t := Clamp(cv.asFloat(args[0]), 0.0, 16000.0);
      && st'.uniforms["_colorTemperature"] == [Float(t)]
      && st'.uniforms["_colorBalance"] == [Float(balance(t).0), Float(balance(t).1)]
    ensures forall u :: u in st.uniforms && u != "_colorTemperature" && u != "_colorBalance" ==>
      u in st'.uniforms && st'.uniforms[u] == st.uniforms[u]
  {
    var st1 := SetClamped(st, "_colorTemperature", 0.0, 16000.0, args, cv);
    var t := st1.uniforms["_colorTemperature"][0].f;
    st1.(uniforms := st1.uniforms["_colorBalance" := [Float(balance(t).0), Float(balance(t).1)]])
  }

  function GetColorTemperature(st: FilterState): (Values, FilterState) {
    GetWithDefault(st, "_colorTemperature", [Float(6500.0)])
  }

  /** `blackLevel`: clamped into [0, 255] and stored as a fraction of 255. */
  function SetBlackLevel(st: FilterState, args: Values, cv: Conversions): (st': FilterState)
    requires |args| >= 1
    ensures "_blackLevel" in st'.uniforms
    ensures st'.uniforms["_blackLevel"] == [Float(Clamp(cv.asFloat(args[0]), 0.0, 255.0) / 255.0)]
    ensures 0.0 <= st'.uniforms["_blackLevel"][0].f <= 1.0
    ensures forall u :: u in st.uniforms && u != "_blackLevel" ==> u in st'.uniforms && st'.uniforms[u] == st.uniforms[u]
  {
    st.(uniforms := st.uniforms["_blackLevel" := [Float(Clamp(cv.asFloat(args[0]), 0.0, 255.0) / 255.0)]])
  }

  /** The black level scaled back to [0, 255]; 0 when none was set. */
  function GetBlackLevel(st: FilterState, cv: Conversions): (r: (Values, FilterState))
    requires "_blackLevel" in st.uniforms ==> |st.uniforms["_blackLevel"]| >= 1
    ensures "_blackLevel" in r.1.uniforms
    ensures "_blackLevel" in st.uniforms ==> r.1 == st
    ensures "_blackLevel" !in st.uniforms ==> r.1.uniforms == st.uniforms["_blackLevel" := [Float(0.0)]]
    ensures |r.0| == 1
  {
    var (stored, st') := GetWithDefault(st, "_blackLevel", [Float(0.0)]);
    ([Float(cv.asFloat(stored[0]) * 255.0)], st')
  }

  /**
   Any black level in [0, 255] reads back unchanged; one outside reads back as
   the nearer bound.
   */
  lemma BlackLevelRoundTrip(st: FilterState, v: Value, cv: Conversions)
    requires Exact(cv)
    ensures var x := cv.asFloat(v);
      GetBlackLevel(SetBlackLevel(st, [v], cv), cv).0 == [Float(Clamp(x, 0.0, 255.0))]
  {
    var c := Clamp(cv.asFloat(v), 0.0, 255.0);
    assert cv.asFloat(Float(c / 255.0)) == c / 255.0;
  }

  /**
   The clamped settings read back what was set, clamped; before anything is set
   they read back their defaults.
   */
  lemma ClampedRoundTrip(st: FilterState, v: Value, cv: Conversions)
    ensures var x := cv.asFloat(v);
      && GetBrightness(SetBrightness(st, [v], cv)).0 == [Float(Clamp(x, 0.0, 2.0))]
      && GetContrast(SetContrast(st, [v], cv)).0 == [Float(Clamp(x, 0.0, 2.0))]
      && GetSaturation(SetSaturation(st, [v], cv)).0 == [Float(Clamp(x, 0.0, 2.0))]
    ensures "_brightness" !in st.uniforms ==> GetBrightness(st).0 == [Float(1.0)]
    ensures "_contrast" !in st.uniforms ==> GetContrast(st).0 == [Float(1.0)]
    ensures "_saturation" !in st.uniforms ==> GetSaturation(st).0 == [Float(1.0)]
    ensures "_colorTemperature" !in st.uniforms ==> GetColorTemperature(st).0 == [Float(6500.0)]
  {
  }

  /** `invertChannels`: the integer argument clamped into {0, 1}. */
  function SetInvertChannels(st: FilterState, args: Values, cv: Conversions): (st': FilterState)
    requires |args| >= 1
    ensures "_invertChannels" in st'.uniforms
    ensures var n := cv.asInt(args[0]);
      st'.uniforms["_invertChannels"] == [Int(if n <= 0 then 0 else 1)]
    ensures forall u :: u in st.uniforms && u != "_invertChannels" ==> u in st'.uniforms && st'.uniforms[u] == st.uniforms[u]
  {
    var enable := cv.asInt(args[0]);
    var clamped := if 1 < (if enable < 0 then 0 else enable) then 1 else (if enable < 0 then 0 else enable);
    st.(uniforms := st.uniforms["_invertChannels" := [Int(clamped)]])
  }

  function GetInvertChannels(st: FilterState): (Values, FilterState) {
    GetWithDefault(st, "_invertChannels", [Int(0)])
  }

  /** `scale`: the two factors as given. */
  function SetScale(st: FilterState, args: Values, cv: Conversions): (st': FilterState)
    requires |args| >= 2
    ensures "_scale" in st'.uniforms
    ensures st'.uniforms["_scale"] == [Float(cv.asFloat(args[0])), Float(cv.asFloat(args[1]))]
    ensures forall u :: u in st.uniforms && u != "_scale" ==> u in st'.uniforms && st'.uniforms[u] == st.uniforms[u]
  {
    st.(uniforms := st.uniforms["_scale" := [Float(cv.asFloat(args[0])), Float(cv.asFloat(args[1]))]])
  }

  function GetScale(st: FilterState): (Values, FilterState) {
    GetWithDefault(st, "_scale", [Float(1.0), Float(1.0)])
  }

  /**
   `invertChannels` reads back 0 or 1 and is 0 until set; `scale` reads back
   the factors set and is (1, 1) until set.
   */
  lemma InvertAndScaleRoundTrip(st: FilterState, v: Value, w: Value, cv: Conversions)
    ensures var r := GetInvertChannels(SetInvertChannels(st, [v], cv)).0;
      r == [Int(0)] || r == [Int(1)]
    ensures GetScale(SetScale(st, [v, w], cv)).0 == [Float(cv.asFloat(v)), Float(cv.asFloat(w))]
    ensures "_invertChannels" !in st.uniforms ==> GetInvertChannels(st).0 == [Int(0)]
    ensures "_scale" !in st.uniforms ==> GetScale(st).0 == [Float(1.0), Float(1.0)]
  {
  }

  /**
   The check of `colorCurves`, one curve at a time: `pointCount` is the length of
   the first non-empty curve seen so far, or 0.
   */
  function CurvesAgree(curves: seq<Values>, pointCount: nat): (ok: bool)
    decreases |curves|
  {
    if |curves| == 0 then pointCount >= 2
    else if pointCount == 0 then CurvesAgree(curves[1..], |curves[0]|)
    else if pointCount != |curves[0]| then false
    else CurvesAgree(curves[1..], pointCount)
  }

  /**
   Reference definition: some curve is the first non-empty one, it has at least
   two points, and every later curve has as many.
   */
  ghost predicate WellFormedCurves(curves: seq<Values>) {
    exists f :: 0 <= f < |curves| && FirstNonEmpty(curves, f) && |curves[f]| >= 2
                && forall k :: f < k < |curves| ==> |curves[k]| == |curves[f]|
  }

  ghost predicate FirstNonEmpty(curves: seq<Values>, f: nat) {
    f < |curves| && |curves[f]| > 0 && forall k :: 0 <= k < f ==> |curves[k]| == 0
  }

  lemma {:induction false} CurvesAgreeFrom(curves: seq<Values>, n: nat)
    requires n > 0
    ensures CurvesAgree(curves, n) <==> n >= 2 && forall k :: 0 <= k < |curves| ==> |curves[k]| == n
    decreases |curves|
  {
    if |curves| > 0 {
      CurvesAgreeFrom(curves[1..], n);
      if |curves[0]| == n {
        assert forall k :: 1 <= k < |curves| ==> curves[k] == curves[1..][k - 1];
      }
    }
  }

  /** The check of `colorCurves` accepts exactly the well-formed curve sets. */
  lemma {:induction false} CurvesAgreeSpec(curves: seq<Values>)
    ensures CurvesAgree(curves, 0) <==> WellFormedCurves(curves)
    decreases |curves|
  {
    if |curves| == 0 {
    } else if |curves[0]| == 0 {
      CurvesAgreeSpec(curves[1..]);
      if WellFormedCurves(curves[1..]) {
        var f :| 0 <= f < |curves[1..]| && FirstNonEmpty(curves[1..], f) && |curves[1..][f]| >= 2
                 && forall k :: f < k < |curves[1..]| ==> |curves[1..][k]| == |curves[1..][f]|;
        assert FirstNonEmpty(curves, f + 1);
        assert forall k :: f + 1 < k < |curves| ==> curves[k] == curves[1..][k - 1];
      }
      if WellFormedCurves(curves) {
        var f :| 0 <= f < |curves| && FirstNonEmpty(curves, f) && |curves[f]| >= 2
                 && forall k :: f < k < |curves| ==> |curves[k]| == |curves[f]|;
        assert f > 0;
        assert FirstNonEmpty(curves[1..], f - 1);
        assert forall k :: f - 1 < k < |curves[1..]| ==> curves[1..][k] == curves[k + 1];
      }
    } else {
      var n := |curves[0]|;
      CurvesAgreeFrom(curves[1..], n);
      assert FirstNonEmpty(curves, 0);
      assert forall k :: 0 < k < |curves| ==> curves[k] == curves[1..][k - 1];
      if WellFormedCurves(curves) {
        var f :| 0 <= f < |curves| && FirstNonEmpty(curves, f) && |curves[f]| >= 2
                 && forall k :: f < k < |curves| ==> |curves[k]| == |curves[f]|;
        assert f == 0;
      }
    }
  }

  /** `colorCurves`: well-formed curves replace the current ones; others are refused. */
  function SetColorCurves(st: FilterState, curves: seq<Values>): (r: (bool, FilterState))
    ensures r.0 <==> WellFormedCurves(curves)
    ensures r.0 ==> r.1 == st.(colorCurves := curves)
    ensures !r.0 ==> r.1 == st
  {
    CurvesAgreeSpec(curves);
    if CurvesAgree(curves, 0) then (true, st.(colorCurves := curves)) else (false, st)
  }

  const Modulus32: int := 0x1_0000_0000

  /** `count` points evenly spread from 0 to 1. */
  function LinearCurve(count: nat): (c: Values)
    requires count >= 2
    ensures |c| == count
    ensures c[0] == Float(0.0) && c[count - 1] == Float(1.0)
    ensures forall i :: 0 <= i < count ==> c[i] == Float(i as real / (count - 1) as real)
  {
    var c := seq(count, i requires 0 <= i < count => Float(i as real / (count - 1) as real));
    assert (count - 1) as real / (count - 1) as real == 1.0;
    c
  }

  /**
   `colorCurveAnchors`: the argument is read as an unsigned 32-bit count. Counts
   below 2 are refused; curves that already have that many points are kept;
   otherwise the curves become three identical linear ramps of that many points.
   */
  function SetColorCurveAnchors(st: FilterState, args: Values, cv: Conversions): (r: (bool, FilterState))
    requires |args| >= 1
    ensures var count := cv.asInt(args[0]) % Modulus32;
      && (r.0 <==> count >= 2)
      && (!r.0 ==> r.1 == st)
      && (r.0 && |st.colorCurves| > 0 && |st.colorCurves[0]| == count ==> r.1 == st)
      && (r.0 && !(|st.colorCurves| > 0 && |st.colorCurves[0]| == count) ==>
            r.1 == st.(colorCurves := [LinearCurve(count), LinearCurve(count), LinearCurve(count)]))
  {
    var count := cv.asInt(args[0]) % Modulus32;
    if count < 2 then (false, st)
    else if |st.colorCurves| > 0 && |st.colorCurves[0]| == count then (true, st)
    else
      var ramp := LinearCurve(count);
      (true, st.(colorCurves := [ramp, ramp, ramp]))
  }

  /** The number of points of the curves, or 0 when there are none. */
  function GetColorCurveAnchors(st: FilterState): (r: Values)
    ensures |r| == 1 && r[0].Int?
    ensures r == [Int(0)] <==> |st.colorCurves| == 0 || |st.colorCurves[0]| == 0
    ensures |st.colorCurves| > 0 ==> r[0].i == |st.colorCurves[0]|
  {
    if |st.colorCurves| == 0 then [Int(0)] else [Int(|st.colorCurves[0]|)]
  }

  /** An accepted anchor count reads back, and the resulting curves are well formed. */
  lemma ColorCurveAnchorsRoundTrip(st: FilterState, n: int, cv: Conversions)
    requires Exact(cv) && 2 <= n < Modulus32
    ensures var (ok, st') := SetColorCurveAnchors(st, [Int(n)], cv);
      ok && GetColorCurveAnchors(st') == [Int(n)]
    ensures var st' := SetColorCurveAnchors(st, [Int(n)], cv).1;
      st'.colorCurves != st.colorCurves ==> WellFormedCurves(st'.colorCurves)
  {
    assert cv.asInt(Int(n)) == n;
    var st' := SetColorCurveAnchors(st, [Int(n)], cv).1;
    if st'.colorCurves != st.colorCurves {
      assert FirstNonEmpty(st'.colorCurves, 0);
    }
  }

  /** `sizeOverride`: the two requested dimensions. */
  function SetSizeOverride(st: FilterState, args: Values, cv: Conversions): (st': FilterState)
    requires |args| >= 2
    ensures st'.sizeOverride == (cv.asInt(args[0]), cv.asInt(args[1]))
    ensures st' == st.(sizeOverride := st'.sizeOverride)
  {
    st.(sizeOverride := (cv.asInt(args[0]), cv.asInt(args[1])))
  }

  /**
   The output size chosen at each render from the previous output, the input
   size and the size override (after its ratio adjustment): with an override in
   force the missing dimension copies the given one.
   */
  function OutputSize(current: Size, input: Size, so: (int, int)): (r: Size)
    ensures (so.0 > 0 || so.1 > 0) && (input != current || (so.0 > 0 && so.1 > 0)) ==>
      r == Size(if so.0 != 0 then so.0 else so.1, if so.1 != 0 then so.1 else so.0)
    ensures !(so.0 > 0 || so.1 > 0) ==> r == input
    ensures (so.0 > 0 || so.1 > 0) && input == current && !(so.0 > 0 && so.1 > 0) ==> r == current
  {
    if input != current || (so.0 > 0 && so.1 > 0) then
      if so.0 > 0 || so.1 > 0 then Size(if so.0 != 0 then so.0 else so.1, if so.1 != 0 then so.1 else so.0)
      else input
    else current
  }

  /** Rendering again with the same input and override keeps the output size. */
  lemma OutputSizeStable(current: Size, input: Size, so: (int, int))
    ensures OutputSize(OutputSize(current, input, so), input, so) == OutputSize(current, input, so)
  {
  }

  /**
   The output timestamp: the largest timestamp among the inputs still alive
   (`None` is an input that is gone), starting from 0.
   */
  method OutputTimestamp(inputs: seq<Option<int>>) returns (t: int)
    ensures t >= 0
    ensures forall k :: 0 <= k < |inputs| && inputs[k].Some? ==> inputs[k].value <= t
    ensures t == 0 || exists k :: 0 <= k < |inputs| && inputs[k] == Some(t)
  {
    t := 0;
    var k := 0;
    while k < |inputs|
      invariant 0 <= k <= |inputs|
      invariant t >= 0
      invariant forall j :: 0 <= j < k && inputs[j].Some? ==> inputs[j].value <= t
      invariant t == 0 || exists j :: 0 <= j < k && inputs[j] == Some(t)
    {
      if inputs[k].Some? && inputs[k].value > t {
        t := inputs[k].value;
      }
      k := k + 1;
    }
  }

  /** The shader uniforms offered as attributes: named, and not starting with '_'. */
  function Exposed(declared: map<string, Values>): (e: set<string>)
    ensures forall u :: u in e <==> u in declared && u != "" && u[0] != '_'
  {
    set u | u in declared && u != "" && u[0] != '_'
  }

  /**
   `setFilterSource`. `compile` gives the uniforms a source declares with their
   initial values, or `None` when it does not compile; then nothing changes.
   Otherwise the attributes of all previous uniforms are withdrawn and each
   exposed uniform becomes an attribute, keeping its previous value when it had one.
   */
  function SetFilterSource(st: FilterState, source: string, compile: string -> Option<map<string, Values>>): (r: (bool, FilterState))
    ensures r.0 <==> compile(source).Some?
    ensures !r.0 ==> r.1 == st
    ensures r.0 ==> var declared := compile(source).value;
      && r.1.attributes == (st.attributes - st.uniforms.Keys) + Exposed(declared)
      && r.1.uniforms.Keys == st.uniforms.Keys + Exposed(declared)
      && (forall u :: u in st.uniforms ==> r.1.uniforms[u] == st.uniforms[u])
      && (forall u :: u in Exposed(declared) && u !in st.uniforms ==> r.1.uniforms[u] == declared[u])
      && r.1.colorCurves == st.colorCurves && r.1.sizeOverride == st.sizeOverride
      && r.1.shaderSource == st.shaderSource
  {
    match compile(source)
    case None => (false, st)
    case Some(declared) =>
      var exposed := Exposed(declared);
      var uniforms := map u | u in st.uniforms.Keys + exposed :: if u in st.uniforms then st.uniforms[u] else declared[u];
      (true, st.(attributes := (st.attributes - st.uniforms.Keys) + exposed, uniforms := uniforms))
  }

  /**
   No attribute that a shader adds is hidden or unnamed; and loading the same
   source a second time changes nothing.
   */
  lemma SetFilterSourceSpec(st: FilterState, source: string, compile: string -> Option<map<string, Values>>)
    ensures var (ok, st') := SetFilterSource(st, source, compile);
      forall u :: u in st'.attributes && u !in st.attributes ==> u != "" && u[0] != '_'
    ensures var st' := SetFilterSource(st, source, compile).1;
      SetFilterSource(st', source, compile).1 == st'
  {
    var (ok, st') := SetFilterSource(st, source, compile);
    if ok {
      var st'' := SetFilterSource(st', source, compile).1;
      assert st''.attributes == st'.attributes;
      assert st''.uniforms == st'.uniforms;
    }
  }

  /**
   The `filterSource` attribute: an empty source is accepted and ignored;
   otherwise the source is recorded and loaded, and the attribute reports
   success whether or not it compiles.
   */
  function SetFilterSourceAttr(st: FilterState, args: Values, cv: Conversions, compile: string -> Option<map<string, Values>>): (r: (bool, FilterState))
    requires |args| >= 1
    ensures r.0
    ensures cv.asString(args[0]) == "" ==> r.1 == st
    ensures cv.asString(args[0]) != "" ==> r.1.shaderSource == cv.asString(args[0])
    ensures cv.asString(args[0]) != "" ==>
      var loaded := SetFilterSource(st, cv.asString(args[0]), compile).1;
      && r.1.uniforms == loaded.uniforms && r.1.attributes == loaded.attributes
      && r.1.colorCurves == st.colorCurves && r.1.sizeOverride == st.sizeOverride
  {
    var src := cv.asString(args[0]);
    if src == "" then (true, st)
    else (true, SetFilterSource(st.(shaderSource := src), src, compile).1)
  }

  function GetFilterSource(st: FilterState): Values {
    [Str(st.shaderSource)]
  }

  /** A non-empty source reads back from the `filterSource` attribute. */
  lemma FilterSourceRoundTrip(st: FilterState, src: string, cv: Conversions, compile: string -> Option<map<string, Values>>)
    requires Exact(cv) && src != ""
    ensures GetFilterSource(SetFilterSourceAttr(st, [Str(src)], cv, compile).1) == [Str(src)]
  {
    assert cv.asString(Str(src)) == src;
  }
}

=== FILE: link.dfy ===
/**
 The inter-process link (src/link.cpp), with its sockets reduced to the frames
 they carry.

 A link sends control messages and serialized buffers to peers and receives
 both from them. Buffers are sent without copying: the sender holds the
 buffer's lock (its "lease") from the moment the buffer is handed to the
 transport until the transport reports it has finished with the bytes, at which
 point the buffer is released and dropped from the in-flight list.
 */
module Link {

  import opened Wrappers
  import opened ValueTypes
  import opened Codec

  const MessagePrefix: string := "ipc:///tmp/splash_msg_"
  const BufferPrefix: string := "ipc:///tmp/splash_buf_"

  /** Endpoint of the control channel of the process called `name`. */
  function MessageEndpoint(name: string): string {
    MessagePrefix + name
  }

  /** Endpoint of the buffer channel of the process called `name`. */
  function BufferEndpoint(name: string): string {
    BufferPrefix + name
  }

  /** The two addresses a link uses for one process. */
  datatype Endpoints = Endpoints(messages: string, buffers: string)

  /** Where `connectTo(peer)` sends. */
  function ConnectTo(peer: string): Endpoints {
    Endpoints(MessageEndpoint(peer), BufferEndpoint(peer))
  }

  /** Where the two receive loops of the link named `self` listen. */
  function BindAs(self: string): Endpoints {
    Endpoints(MessageEndpoint(self), BufferEndpoint(self))
  }

  /**
   The endpoint names never mix the channels and tell the processes apart: a
   connection to `peer` reaches the receivers of `self` exactly when the names
   are equal, on each channel separately.
   */
  lemma EndpointsMatch(peer: string, self: string)
    ensures MessageEndpoint(peer) != BufferEndpoint(self)
    ensures MessageEndpoint(peer) == MessageEndpoint(self) <==> peer == self
    ensures BufferEndpoint(peer) == BufferEndpoint(self) <==> peer == self
    ensures ConnectTo(peer) == BindAs(self) <==> peer == self
  {
    var n := |MessagePrefix|;
    assert MessageEndpoint(peer)[18] == MessagePrefix[18] == 'm';
    assert BufferEndpoint(self)[18] == BufferPrefix[18] == 'b';
    if MessageEndpoint(peer) == MessageEndpoint(self) {
      assert peer == MessageEndpoint(peer)[n..] == MessageEndpoint(self)[n..] == self;
    }
    if BufferEndpoint(peer) == BufferEndpoint(self) {
      assert peer == BufferEndpoint(peer)[n..] == BufferEndpoint(self)[n..] == self;
    }
  }

  /** Identity of a serialized buffer: the address of its bytes. */
  type BufferId = nat

  datatype Buffer = Buffer(id: BufferId, data: Bytes)

  /**
   The sending side of a link: which buffers are locked, the buffers handed to
   the transport and not yet released, and what each output channel has carried.
   */
  datatype LinkState = LinkState(
    leased: set<BufferId>,
    inFlight: seq<Buffer>,
    bufferOut: seq<Frame>,
    messageOut: seq<Frame>)

  /** Every in-flight buffer holds its lease, and no buffer is in flight twice. */
  ghost predicate Valid(st: LinkState) {
    && (forall k :: 0 <= k < |st.inFlight| ==> st.inFlight[k].id in st.leased)
    && (forall i, j :: 0 <= i < j < |st.inFlight| ==> st.inFlight[i].id != st.inFlight[j].id)
  }

  /** Position of the first in-flight buffer with identity `id`, or the length when there is none. */
  function FindBuffer(s: seq<Buffer>, id: BufferId): (i: nat)
    ensures i <= |s|
    ensures i < |s| ==> s[i].id == id
    ensures forall j :: 0 <= j < i ==> s[j].id != id
  {
    if |s| == 0 then 0
    else if s[0].id == id then 0
    else 1 + FindBuffer(s[1..], id)
  }

  ghost predicate InFlight(st: LinkState, id: BufferId) {
    exists k :: 0 <= k < |st.inFlight| && st.inFlight[k].id == id
  }

  /**
   Sends `buf` to the object `name` on the buffer channel. `accepted` is how
   many of the two frames the transport takes before it fails; the result is
   true whenever the lease could be taken, whatever the transport does.
   */
  function SendBuffer(st: LinkState, name: string, buf: Buffer, accepted: nat): (r: (bool, LinkState))
    ensures var (sent, st') := r;
      && (sent <==> buf.id !in st.leased)
      && (!sent ==> st' == st)
      && (sent ==> && st'.leased == st.leased + {buf.id}
                   && st'.inFlight == st.inFlight + [buf]
                   && st'.messageOut == st.messageOut
                   && |st.bufferOut| <= |st'.bufferOut| <= |st.bufferOut| + 2
                   && st'.bufferOut[..|st.bufferOut|] == st.bufferOut)
  {
    if buf.id in st.leased then (false, st)
    else
      var frames := [NameFrame(name), Frame(buf.data, false)];
      var sentFrames := if accepted < 2 then frames[..accepted] else frames;
      (true, st.(leased := st.leased + {buf.id},
                 inFlight := st.inFlight + [buf],
                 bufferOut := st.bufferOut + sentFrames))
  }

  /**
   The transport is done with the bytes of buffer `id`: release and drop the
   first in-flight buffer with that identity. An unknown identity changes nothing.
   */
  function FreeOlderBuffer(st: LinkState, id: BufferId): (st': LinkState)
    ensures !InFlight(st, id) ==> st' == st
    ensures InFlight(st, id) ==>
      var i := FindBuffer(st.inFlight, id);
      && st'.inFlight == st.inFlight[..i] + st.inFlight[i + 1..]
      && st'.leased == st.leased - {id}
    ensures st'.bufferOut == st.bufferOut && st'.messageOut == st.messageOut
  {
    var i := FindBuffer(st.inFlight, id);
    if i == |st.inFlight| then st
    else st.(leased := st.leased - {id}, inFlight := st.inFlight[..i] + st.inFlight[i + 1..])
  }

  /** Sending a buffer keeps the lease invariant. */
  lemma SendBufferValid(st: LinkState, name: string, buf: Buffer, accepted: nat)
    requires Valid(st)
    ensures Valid(SendBuffer(st, name, buf, accepted).1)
  {
    var (sent, st') := SendBuffer(st, name, buf, accepted);
    if sent {
      forall i, j | 0 <= i < j < |st'.inFlight|
        ensures st'.inFlight[i].id != st'.inFlight[j].id
      {
        if j == |st.inFlight| {
          assert st.inFlight[i].id in st.leased;
        } else {
          assert st'.inFlight[i] == st.inFlight[i] && st'.inFlight[j] == st.inFlight[j];
        }
      }
    }
  }

  /**
   Releasing a buffer keeps the lease invariant, and afterwards no buffer with
   that identity is in flight.
   */
  lemma FreeOlderBufferValid(st: LinkState, id: BufferId)
    requires Valid(st)
    ensures Valid(FreeOlderBuffer(st, id))
    ensures !InFlight(FreeOlderBuffer(st, id), id)
  {
    var st' := FreeOlderBuffer(st, id);
    var s := st.inFlight;
    var i := FindBuffer(s, id);
    if i < |s| {
      forall k | 0 <= k < |st'.inFlight|
        ensures st'.inFlight[k] == s[if k < i then k else k + 1]
      {
      }
      forall k | 0 <= k < |st'.inFlight|
        ensures st'.inFlight[k].id != id && st'.inFlight[k].id in st'.leased
      {
        var m := if k < i then k else k + 1;
        assert s[m].id != s[i].id;
      }
      forall a, b | 0 <= a < b < |st'.inFlight|
        ensures st'.inFlight[a].id != st'.inFlight[b].id
      {
        var ma := if a < i then a else a + 1;
        var mb := if b < i then b else b + 1;
        assert s[ma].id != s[mb].id;
      }
    }
  }

  /**
   A successful send followed by the transport's release of the same buffer
   returns the lease registry to where it started.
   */
  lemma SendThenFree(st: LinkState, name: string, buf: Buffer, accepted: nat)
    requires Valid(st) && buf.id !in st.leased
    ensures var st' := FreeOlderBuffer(SendBuffer(st, name, buf, accepted).1, buf.id);
      st'.inFlight == st.inFlight && st'.leased == st.leased
  {
    var st1 := SendBuffer(st, name, buf, accepted).1;
    var s := st1.inFlight;
    forall k | 0 <= k < |st.inFlight|
      ensures s[k].id != buf.id
    {
      assert s[k] == st.inFlight[k];
      assert st.inFlight[k].id in st.leased;
    }
    var n := |st.inFlight|;
    assert s[n].id == buf.id;
    assert FindBuffer(s, buf.id) == n;
    assert s[..n] == st.inFlight;
    assert InFlight(st1, buf.id);
  }

  /**
   The receive loop of the buffer channel: the target name read as a C string,
   and the raw bytes of the following frame.
   */
  function ReceiveBuffer(fs: seq<Frame>): (r: Option<(string, Bytes, seq<Frame>)>)
    ensures r.Some? ==> |fs| >= 2 && r.value.1 == fs[1].data && r.value.2 == fs[2..]
  {
    if |fs| < 2 then None
    else Some((CString(fs[0].data), fs[1].data, fs[2..]))
  }

  /**
   What a successful send puts on the buffer channel reaches the receiver as the
   same target name and a byte-for-byte copy of the buffer.
   */
  lemma SendBufferReceived(st: LinkState, name: string, buf: Buffer, rest: seq<Frame>)
    requires IsWireText(name) && buf.id !in st.leased
    ensures var st' := SendBuffer(st, name, buf, 2).1;
      var sent := st'.bufferOut[|st.bufferOut|..];
      ReceiveBuffer(sent + rest) == Some((name, buf.data, rest))
  {
    var st' := SendBuffer(st, name, buf, 2).1;
    var sent := st'.bufferOut[|st.bufferOut|..];
    assert sent == [NameFrame(name), Frame(buf.data, false)];
    CStringOfStrBytes(name, []);
    assert StrBytes(name) + [0] + [] == (sent + rest)[0].data;
    assert (sent + rest)[2..] == rest;
  }

  /** Sends one control message; the sender always reports success. */
  function SendMessage(st: LinkState, m: Message, fl: FloatLayout): (r: (bool, LinkState))
    ensures r.0
    ensures r.1.leased == st.leased && r.1.inFlight == st.inFlight && r.1.bufferOut == st.bufferOut
  {
    (true, st.(messageOut := st.messageOut + EncodeMessage(m, fl)))
  }

  /** Sends each message in turn. */
  function SendMessages(st: LinkState, ms: seq<Message>, fl: FloatLayout): LinkState
    decreases |ms|
  {
    if |ms| == 0 then st else SendMessages(SendMessage(st, ms[0], fl).1, ms[1..], fl)
  }

  lemma {:induction false} SendMessagesFrames(st: LinkState, ms: seq<Message>, fl: FloatLayout)
    ensures SendMessages(st, ms, fl).messageOut == st.messageOut + EncodeStream(ms, fl)
    decreases |ms|
  {
    if |ms| > 0 {
      var st1 := SendMessage(st, ms[0], fl).1;
      SendMessagesFrames(st1, ms[1..], fl);
      assert st.messageOut + EncodeMessage(ms[0], fl) + EncodeStream(ms[1..], fl)
          == st.messageOut + EncodeStream(ms, fl);
    } else {
      assert st.messageOut + [] == st.messageOut;
    }
  }

  /**
   A peer whose receive loop starts reading the control channel of a fresh link
   dispatches exactly the messages sent over it, in sending order.
   */
  lemma MessagesDeliveredInOrder(st: LinkState, ms: seq<Message>, fl: FloatLayout)
    requires st.messageOut == []
    requires forall k :: 0 <= k < |ms| ==> RepresentableMessage(ms[k], fl)
    ensures DecodeStream(SendMessages(st, ms, fl).messageOut, fl) == ms
  {
    SendMessagesFrames(st, ms, fl);
    assert [] + EncodeStream(ms, fl) == EncodeStream(ms, fl);
    DecodeEncodeStream(ms, fl);
  }
}

=== FILE: object.dfy ===
/**
 A drawable object (src/object.cpp): the textures, blending maps and geometries
 it is linked to, the shader set-up chosen when it is activated, and the
 attribute setters it registers.

 Textures and geometries are shared objects compared by identity; here they are
 named by their identity. GPU work (shader compilation, buffers, compute and
 feedback passes) is not modelled.
 */
module Object {

  import opened Wrappers
  import opened ValueTypes
  import Seqs

  /** Identity of a shared texture. */
  type TextureRef = string

  /** Identity of a shared geometry. */
  type GeometryRef = string

  datatype ObjectState = ObjectState(
    name: string,
    textures: seq<TextureRef>,
    blendMaps: seq<TextureRef>,
    geometries: seq<GeometryRef>,
    vertexBlending: bool,
    position: seq<real>,
    scale: seq<real>,
    sideness: int,
    fill: string,
    color: seq<real>,
    updatedParams: bool)

  /** Links a texture: appends it after the textures already linked. */
  function AddTexture(st: ObjectState, tex: TextureRef): (st': ObjectState)
    ensures st' == st.(textures := st'.textures)
    ensures |st'.textures| == |st.textures| + 1
    ensures st'.textures[..|st.textures|] == st.textures && st'.textures[|st.textures|..] == [tex]
  {
    st.(textures := st.textures + [tex])
  }

  /** Unlinks a texture: erases its first occurrence, if any. */
  function RemoveTexture(st: ObjectState, tex: TextureRef): (st': ObjectState)
    ensures st' == st.(textures := st'.textures)
    ensures tex !in st.textures ==> st'.textures == st.textures
    ensures tex in st.textures ==>
      |st'.textures| == |st.textures| - 1
      && multiset(st'.textures) + multiset{tex} == multiset(st.textures)
  {
    var ts := Seqs.RemoveFirst(st.textures, tex);
    assert tex in st.textures ==> multiset(ts) + multiset{tex} == multiset(st.textures) by {
      if tex in st.textures {
        Seqs.RemoveFirstMultiset(st.textures, tex);
      }
    }
    st.(textures := ts)
  }

  /** Unlinks a geometry: erases its first occurrence, if any. */
  function RemoveGeometry(st: ObjectState, geom: GeometryRef): (st': ObjectState)
    ensures st' == st.(geometries := st'.geometries)
    ensures geom !in st.geometries ==> st'.geometries == st.geometries
    ensures geom in st.geometries ==>
      |st'.geometries| == |st.geometries| - 1
      && multiset(st'.geometries) + multiset{geom} == multiset(st.geometries)
  {
    var gs := Seqs.RemoveFirst(st.geometries, geom);
    assert geom in st.geometries ==> multiset(gs) + multiset{geom} == multiset(st.geometries) by {
      if geom in st.geometries {
        Seqs.RemoveFirstMultiset(st.geometries, geom);
      }
    }
    st.(geometries := gs)
  }

  /**
   The erase keeps the order of the other textures: those before the erased
   one stay in place, those after it move up by one.
   */
  lemma RemoveTextureKeepsOrder(st: ObjectState, tex: TextureRef)
    requires tex in st.textures
    ensures var i := Seqs.IndexOf(st.textures, tex);
      var ts := RemoveTexture(st, tex).textures;
      && i < |st.textures| && st.textures[i] == tex
      && ts[..i] == st.textures[..i] && ts[i..] == st.textures[i + 1..]
      && tex !in st.textures[..i]
  {
    Seqs.RemoveFirstOrder(st.textures, tex);
  }

  /**
   Likewise for geometries: those before the erased one stay in place, those
   after it move up by one.
   */
  lemma RemoveGeometryKeepsOrder(st: ObjectState, geom: GeometryRef)
    requires geom in st.geometries
    ensures var i := Seqs.IndexOf(st.geometries, geom);
      var gs := RemoveGeometry(st, geom).geometries;
      && i < |st.geometries| && st.geometries[i] == geom
      && gs[..i] == st.geometries[..i] && gs[i..] == st.geometries[i + 1..]
      && geom !in st.geometries[..i]
  {
    Seqs.RemoveFirstOrder(st.geometries, geom);
  }

  /** Adds a blending map, both as a blending map and as a texture. */
  function SetBlendingMap(st: ObjectState, blendMap: TextureRef): (st': ObjectState)
    ensures st'.blendMaps == st.blendMaps + [blendMap] && st'.textures == st.textures + [blendMap]
    ensures st' == st.(blendMaps := st'.blendMaps, textures := st'.textures)
  {
    st.(blendMaps := st.blendMaps + [blendMap], textures := st.textures + [blendMap])
  }

  /**
   When the last texture is erased while blending maps remain to be compared,
   the loop of `resetBlendingMap` goes on comparing the end of the texture list,
   which C++ leaves undefined. That cannot happen when the last texture equals
   no blending map but possibly the last one; some other inputs run safely too.
   */
  ghost predicate NoReadPastEnd(textures: seq<TextureRef>, blendMaps: seq<TextureRef>) {
    |textures| == 0 || forall k :: 0 <= k < |blendMaps| - 1 ==> blendMaps[k] != textures[|textures| - 1]
  }

  /**
   Drops every blending map from the textures, then forgets the blending maps.
   The loop is Splash's: a texture equal to a blending map is erased and the
   next one is compared with the remaining maps. A comparison past the end of
   the list is reported as `ok == false`, and the state is then left as it was.
   */
  method ResetBlendingMap(st: ObjectState) returns (st': ObjectState, ok: bool)
    ensures NoReadPastEnd(st.textures, st.blendMaps) ==> ok
    ensures ok ==> st'.textures == Seqs.Strip(st.textures, st.blendMaps)
    ensures ok ==> st'.blendMaps == [] && st'.updatedParams
    ensures ok ==> st' == st.(textures := st'.textures, blendMaps := [], updatedParams := true)
    ensures !ok ==> st' == st
  {
    var bm := st.blendMaps;
    var ts := st.textures;
    var i := 0;
    if |ts| > 0 {
      var last := ts[|ts| - 1];
      while i < |ts|
        invariant 0 <= i <= |ts|
        invariant Seqs.Strip(ts, bm) == Seqs.Strip(st.textures, bm)
        invariant forall x :: x in ts[..i] ==> x !in bm
        invariant i < |ts| ==> ts[|ts| - 1] == last
        decreases |ts| - i
      {
        var ts', erased, pastEnd := CompareWithBlendMaps(ts, i, bm);
        if pastEnd {
          return st, false;
        }
        if !erased {
          Seqs.PrefixSnoc(ts, i);
          i := i + 1;
        }
        ts := ts';
      }
    }
    assert ts[..i] == ts;
    Seqs.StripNone(ts, bm);
    st', ok := st.(textures := ts, blendMaps := [], updatedParams := true), true;
  }

  /**
   One pass of the inner loop of `resetBlendingMap` at position `i`: each
   blending map in turn is compared with the texture now at `i`, which is erased
   on a match. `pastEnd` says that an erase left nothing at `i` while maps
   remained, so the next comparison would read past the end; the pass stops there.
   */
  method CompareWithBlendMaps(ts: seq<TextureRef>, i: nat, bm: seq<TextureRef>)
    returns (ts': seq<TextureRef>, erased: bool, pastEnd: bool)
    requires i < |ts|
    ensures Seqs.Strip(ts', bm) == Seqs.Strip(ts, bm)
    ensures i <= |ts'| <= |ts|
    ensures ts'[..i] == ts[..i]
    ensures !erased ==> ts' == ts && ts[i] !in bm && !pastEnd
    ensures erased ==> |ts'| < |ts|
    ensures i < |ts'| ==> ts'[|ts'| - 1] == ts[|ts| - 1]
    ensures pastEnd ==> i == |ts'| && exists k :: 0 <= k < |bm| - 1 && bm[k] == ts[|ts| - 1]
  {
    erased, pastEnd := false, false;
    ts' := ts;
    var last := ts[|ts| - 1];
    var j := 0;
    while j < |bm| && !pastEnd
      invariant 0 <= j <= |bm|
      invariant i <= |ts'| <= |ts|
      invariant i < |ts'| || j == |bm| || pastEnd
      invariant ts'[..i] == ts[..i]
      invariant !erased ==> ts' == ts && !pastEnd
      invariant erased ==> |ts'| < |ts|
      invariant Seqs.Strip(ts', bm) == Seqs.Strip(ts, bm)
      invariant i < |ts'| ==> ts'[|ts'| - 1] == last
      invariant !erased ==> ts[i] !in bm[..j]
      invariant pastEnd ==> i == |ts'| && exists k :: 0 <= k < |bm| - 1 && bm[k] == last
    {
      Seqs.PrefixSnoc(bm, j);
      if ts'[i] == bm[j] {
        Seqs.StripErase(ts', i, bm);
        EraseKeeps(ts', i, last);
        ts' := ts'[..i] + ts'[i + 1..];
        erased := true;
        if i == |ts'| && j + 1 < |bm| {
          pastEnd := true;
        }
      }
      j := j + 1;
    }
    if !pastEnd {
      assert bm[..j] == bm;
    }
  }

  /** Erasing position `i` keeps the textures before it and, unless it was the last, the last one. */
  lemma EraseKeeps(ts: seq<TextureRef>, i: nat, last: TextureRef)
    requires i < |ts| && ts[|ts| - 1] == last
    ensures var e := ts[..i] + ts[i + 1..];
      && |e| == |ts| - 1 && e[..i] == ts[..i]
      && (i < |e| ==> e[|e| - 1] == last)
      && (i == |e| ==> ts[i] == last)
  {
    var e := ts[..i] + ts[i + 1..];
    assert e[..i] == ts[..i];
    if i < |e| {
      assert e[|e| - 1] == ts[i + 1..][|e| - 1 - i];
    }
  }

  /**
   Whether the first blending map is also one of the textures, found by the
   scan of `activate`.
   */
  method WithTextureBlend(blendMaps: seq<TextureRef>, textures: seq<TextureRef>) returns (blend: bool)
    ensures blend <==> |blendMaps| > 0 && blendMaps[0] in textures
  {
    blend := false;
    if |blendMaps| != 0 {
      var i := 0;
      while i < |textures|
        invariant 0 <= i <= |textures|
        invariant blend <==> blendMaps[0] in textures[..i]
      {
        if blendMaps[0] == textures[i] {
          blend := true;
        }
        assert textures[..i + 1] == textures[..i] + [textures[i]];
        i := i + 1;
      }
      assert textures[..i] == textures;
    }
  }

  /** The `TEX_1` .. `TEX_n` defines of a window fill. */
  function TexDefines(n: nat): (d: seq<string>)
    requires n <= 9
    ensures |d| == n
    ensures forall k :: 0 <= k < n ==> d[k] == "TEX_" + [('1' as int + k) as char]
  {
    if n == 0 then [] else TexDefines(n - 1) + ["TEX_" + [('0' as int + n) as char]]
  }

  /** The shader settings `activate` chooses; `fill` is `None` when it sets no fill. */
  datatype ShaderSetup = ShaderSetup(fill: Option<seq<string>>, color: Option<seq<real>>)

  /**
   The fill chosen when the object is activated, from its fill name, its
   textures (`firstIsSyphon` tells whether the first texture is a Syphon texture)
   and its blending state. Nothing is set up without a geometry.
   */
  function Activate(st: ObjectState, firstIsSyphon: bool, withBlend: bool): (r: Option<ShaderSetup>)
    ensures r.None? <==> |st.geometries| == 0
    ensures r.Some? && st.fill == "window" ==>
      (r.value.fill.Some? <==> 1 <= |st.textures| <= 4)
      && (r.value.fill.Some? ==> r.value.fill.value == ["window"] + TexDefines(|st.textures|))
    ensures r.Some? && st.fill == "texture" ==>
      && r.value.fill.Some? && |r.value.fill.value| > 0 && r.value.fill.value[0] == "texture"
      && ("TEXTURE_RECT" in r.value.fill.value <==> |st.textures| > 0 && firstIsSyphon)
      && ("VERTEXBLENDING" in r.value.fill.value <==> st.vertexBlending)
      && ("BLENDING" in r.value.fill.value <==> !st.vertexBlending && withBlend)
    ensures r.Some? && st.fill != "texture" && st.fill != "window" ==>
      r.value == ShaderSetup(Some([st.fill]), Some(st.color))
  {
    if |st.geometries| == 0 then None
    else if st.fill == "texture" then
      var mode := if st.vertexBlending then ["VERTEXBLENDING"] else if withBlend then ["BLENDING"] else [];
      var rect := if |st.textures| > 0 && firstIsSyphon then ["TEXTURE_RECT"] else [];
      Some(ShaderSetup(Some(["texture"] + mode + rect), None))
    else if st.fill == "window" then
      if 1 <= |st.textures| <= 4 then Some(ShaderSetup(Some(["window"] + TexDefines(|st.textures|)), None))
      else Some(ShaderSetup(None, None))
    else
      Some(ShaderSetup(Some([st.fill]), Some(st.color)))
  }

  /** Name of the texture created to link an image `other` to object `obj`. */
  function TextureName(obj: string, other: string): string {
    obj + "_" + other + "_tex"
  }

  /** Name of the geometry created to link a mesh `other` to object `obj`. */
  function GeometryName(obj: string, other: string): string {
    obj + "_" + other + "_geom"
  }

  /**
   The derived names tell the linked objects apart, and a derived texture name
   is never a derived geometry name, so unlinking finds what linking created.
   */
  lemma DerivedNames(obj: string, a: string, b: string, c: string, d: string)
    ensures TextureName(obj, a) == TextureName(obj, b) <==> a == b
    ensures GeometryName(obj, a) == GeometryName(obj, b) <==> a == b
    ensures TextureName(c, a) != GeometryName(d, b)
  {
    var n := |obj| + 1;
    if TextureName(obj, a) == TextureName(obj, b) {
      assert |a| == |b|;
      assert a == TextureName(obj, a)[n..n + |a|] == TextureName(obj, b)[n..n + |b|] == b;
    }
    if GeometryName(obj, a) == GeometryName(obj, b) {
      assert |a| == |b|;
      assert a == GeometryName(obj, a)[n..n + |a|] == GeometryName(obj, b)[n..n + |b|] == b;
    }
    var t := TextureName(c, a);
    var g := GeometryName(d, b);
    assert t[|t| - 1] == 'x' && g[|g| - 1] == 'm';
  }

  /**
   Across objects the derived names can coincide: object "a_b" linked to "c"
   and object "a" linked to "b_c" derive the same texture and geometry names.
   */
  lemma DerivedNamesAcrossObjects()
    ensures TextureName("a_b", "c") == TextureName("a", "b_c")
    ensures GeometryName("a_b", "c") == GeometryName("a", "b_c")
    ensures "a_b" != "a" && "c" != "b_c"
  {
  }

  /** `activateVertexBlending`: exactly one argument, read as an integer flag. */
  function SetActivateVertexBlending(st: ObjectState, args: Values, cv: Conversions): (r: (bool, ObjectState))
    ensures r.0 <==> |args| == 1
    ensures !r.0 ==> r.1 == st
    ensures r.0 ==> r.1 == st.(vertexBlending := cv.asInt(args[0]) != 0)
  {
    if |args| != 1 then (false, st)
    else (true, st.(vertexBlending := cv.asInt(args[0]) != 0))
  }

  /** The first `n` arguments read as floats. */
  function Floats(args: Values, n: nat, cv: Conversions): (r: seq<real>)
    requires n <= |args|
    ensures |r| == n && forall k :: 0 <= k < n ==> r[k] == cv.asFloat(args[k])
  {
    seq(n, k requires 0 <= k < n => cv.asFloat(args[k]))
  }

  /** `position`: at least three arguments. */
  function SetPosition(st: ObjectState, args: Values, cv: Conversions): (r: (bool, ObjectState))
    ensures r.0 <==> |args| >= 3
    ensures !r.0 ==> r.1 == st
    ensures r.0 ==> r.1 == st.(position := r.1.position)
  {
    if |args| < 3 then (false, st)
    else (true, st.(position := Floats(args, 3, cv)))
  }

  function GetPosition(st: ObjectState): Values {
    seq(|st.position|, k requires 0 <= k < |st.position| => Float(st.position[k]))
  }

  /** `position` reads back the first three arguments it accepted, as floats. */
  lemma PositionRoundTrip(st: ObjectState, args: Values, cv: Conversions)
    requires |args| >= 3
    ensures GetPosition(SetPosition(st, args, cv).1)
         == [Float(cv.asFloat(args[0])), Float(cv.asFloat(args[1])), Float(cv.asFloat(args[2]))]
  {
  }

  /**
   `scale`: at least one argument; with fewer than three the first one scales
   every axis, otherwise each of the first three scales its own axis.
   */
  function SetScale(st: ObjectState, args: Values, cv: Conversions): (r: (bool, ObjectState))
    ensures r.0 <==> |args| >= 1
    ensures !r.0 ==> r.1 == st
    ensures r.0 ==> r.1 == st.(scale := r.1.scale) && |r.1.scale| == 3
    ensures r.0 && |args| < 3 ==> forall k :: 0 <= k < 3 ==> r.1.scale[k] == cv.asFloat(args[0])
    ensures r.0 && |args| >= 3 ==> forall k :: 0 <= k < 3 ==> r.1.scale[k] == cv.asFloat(args[k])
  {
    if |args| < 1 then (false, st)
    else if |args| < 3 then
      var s := cv.asFloat(args[0]);
      (true, st.(scale := [s, s, s]))
    else (true, st.(scale := Floats(args, 3, cv)))
  }

  function GetScale(st: ObjectState): Values {
    seq(|st.scale|, k requires 0 <= k < |st.scale| => Float(st.scale[k]))
  }

  /** A single scale argument reads back as the same factor on all three axes. */
  lemma UniformScaleRoundTrip(st: ObjectState, v: Value, cv: Conversions)
    ensures var f := Float(cv.asFloat(v));
      GetScale(SetScale(st, [v], cv).1) == [f, f, f]
  {
  }

  /** `sideness`: at least one argument, read as an integer. */
  function SetSideness(st: ObjectState, args: Values, cv: Conversions): (r: (bool, ObjectState))
    ensures r.0 <==> |args| >= 1
    ensures !r.0 ==> r.1 == st
    ensures r.0 ==> r.1 == st.(sideness := cv.asInt(args[0]))
  {
    if |args| < 1 then (false, st)
    else (true, st.(sideness := cv.asInt(args[0])))
  }

  /** `fill`: at least one argument, read as a string. */
  function SetFill(st: ObjectState, args: Values, cv: Conversions): (r: (bool, ObjectState))
    ensures r.0 <==> |args| >= 1
    ensures !r.0 ==> r.1 == st
    ensures r.0 ==> r.1 == st.(fill := cv.asString(args[0]))
  {
    if |args| < 1 then (false, st)
    else (true, st.(fill := cv.asString(args[0])))
  }

  /** `color`: at least four arguments. */
  function SetColor(st: ObjectState, args: Values, cv: Conversions): (r: (bool, ObjectState))
    ensures r.0 <==> |args| >= 4
    ensures !r.0 ==> r.1 == st
    ensures r.0 ==> r.1 == st.(color := r.1.color) && |r.1.color| == 4
    ensures r.0 ==> forall k :: 0 <= k < 4 ==> r.1.color[k] == cv.asFloat(args[k])
  {
    if |args| < 4 then (false, st)
    else (true, st.(color := Floats(args, 4, cv)))
  }

  /** A color set on an object that fills with neither textures nor windows reaches its shader. */
  lemma ColorReachesShader(st: ObjectState, args: Values, cv: Conversions, syphon: bool, blend: bool)
    requires |args| >= 4 && |st.geometries| > 0 && st.fill != "texture" && st.fill != "window"
    ensures var r := Activate(SetColor(st, args, cv).1, syphon, blend);
      r.Some? && r.value.color == Some(Floats(args, 4, cv))
  {
  }
}

=== FILE: seqs.dfy ===
/**
 Sequence helpers shared by the model: first-occurrence search and removal
 (`std::find` followed by `erase`), order-preserving deduplication (the
 "push_back if not already found" idiom), and filtering out a set of values.
 */
module Seqs {

  /** No value occurs twice. */
  ghost predicate NoDups<T>(s: seq<T>) {
    forall i, j :: 0 <= i < j < |s| ==> s[i] != s[j]
  }

  /** Position of the first `x` in `s`, or `|s|` when `x` is absent (`std::find`). */
  function IndexOf<T(==)>(s: seq<T>, x: T): (i: nat)
    ensures i <= |s|
    ensures i < |s| ==> s[i] == x
    ensures forall j :: 0 <= j < i ==> s[j] != x
    ensures i == |s| <==> x !in s
  {
    if |s| == 0 then 0
    else if s[0] == x then 0
    else 1 + IndexOf(s[1..], x)
  }

  /** `s` with its first `x` erased; `s` itself when `x` is absent. */
  function RemoveFirst<T(==)>(s: seq<T>, x: T): (r: seq<T>)
    ensures x !in s ==> r == s
    ensures x in s ==> |r| == |s| - 1
  {
    var i := IndexOf(s, x);
    if i == |s| then s else s[..i] + s[i + 1..]
  }

  /**
   Erasing the first `x` keeps the order of the rest: the values before it stay
   in place and those after it move up by one.
   */
  lemma {:induction false} RemoveFirstOrder<T>(s: seq<T>, x: T)
    requires x in s
    ensures var i := IndexOf(s, x);
      && i < |s| && s[i] == x
      && RemoveFirst(s, x)[..i] == s[..i]
      && RemoveFirst(s, x)[i..] == s[i + 1..]
  {
    var i := IndexOf(s, x);
    var before, after := s[..i], s[i + 1..];
    assert RemoveFirst(s, x) == before + after;
    assert (before + after)[..i] == before;
    assert (before + after)[i..] == after;
  }

  /** Removing the first `x` takes exactly one `x` out of the multiset of values. */
  lemma RemoveFirstMultiset<T>(s: seq<T>, x: T)
    requires x in s
    ensures multiset(RemoveFirst(s, x)) + multiset{x} == multiset(s)
  {
    var i := IndexOf(s, x);
    var tail := s[i + 1..];
    assert s == s[..i] + ([x] + tail);
    assert multiset(s) == multiset(s[..i]) + multiset([x] + tail);
    assert multiset([x] + tail) == multiset{x} + multiset(tail);
  }

  /** Appends each element of `s` to `acc` unless `acc` already holds it. */
  function DedupInto<T(==)>(acc: seq<T>, s: seq<T>): (r: seq<T>)
    decreases |s|
  {
    if |s| == 0 then acc
    else DedupInto(if s[0] in acc then acc else acc + [s[0]], s[1..])
  }

  /** First occurrences of the elements of `s`, in the order they are first seen. */
  function Dedup<T(==)>(s: seq<T>): seq<T> {
    DedupInto([], s)
  }

  /** `DedupInto` extends its accumulator, never repeats, and collects exactly the new elements. */
  lemma {:induction false} DedupIntoFacts<T>(acc: seq<T>, s: seq<T>)
    requires NoDups(acc)
    ensures var r := DedupInto(acc, s);
      && |acc| <= |r| && r[..|acc|] == acc
      && NoDups(r)
      && (forall k :: 0 <= k < |r| ==> r[k] in acc || r[k] in s)
      && (forall k :: 0 <= k < |s| ==> s[k] in r)
    decreases |s|
  {
    if |s| > 0 {
      var acc' := if s[0] in acc then acc else acc + [s[0]];
      DedupIntoFacts(acc', s[1..]);
      var r := DedupInto(acc', s[1..]);
      assert r[..|acc|] == r[..|acc'|][..|acc|];
      assert s[0] in r by {
        assert s[0] in acc';
        assert r[..|acc'|] == acc';
      }
      forall k | 0 <= k < |s|
        ensures s[k] in r
      {
        if k > 0 {
          assert s[k] == s[1..][k - 1];
        }
      }
    }
  }

  /** Deduplicating a concatenation is deduplicating the parts one after the other. */
  lemma {:induction false} DedupIntoAppend<T>(acc: seq<T>, s1: seq<T>, s2: seq<T>)
    ensures DedupInto(acc, s1 + s2) == DedupInto(DedupInto(acc, s1), s2)
    decreases |s1|
  {
    if |s1| > 0 {
      assert (s1 + s2)[0] == s1[0];
      assert (s1 + s2)[1..] == s1[1..] + s2;
      DedupIntoAppend(if s1[0] in acc then acc else acc + [s1[0]], s1[1..], s2);
    } else {
      assert s1 + s2 == s2;
    }
  }

  /** Every element of `r` was first seen in `s` before the next element of `r`. */
  ghost predicate FirstSeenOrder<T>(s: seq<T>, r: seq<T>)
    requires forall x :: x in r ==> x in s
  {
    forall i, j :: 0 <= i < j < |r| ==> IndexOf(s, r[i]) < IndexOf(s, r[j])
  }

  /**
   `Dedup(s)` lists each element of `s` exactly once, in first-seen order; these
   three facts determine it uniquely.
   */
  lemma {:induction false} DedupSpec<T>(s: seq<T>)
    ensures NoDups(Dedup(s))
    ensures forall x :: x in Dedup(s) <==> x in s
    ensures FirstSeenOrder(s, Dedup(s))
  {
    DedupIntoFacts([], s);
    DedupOrder([], s);
    forall x
      ensures x in Dedup(s) <==> x in s
    {
      if x in Dedup(s) {
        var k :| 0 <= k < |Dedup(s)| && Dedup(s)[k] == x;
      }
    }
  }

  /** Order part of `DedupSpec`, generalised over an accumulator of already-seen values. */
  lemma {:induction false} DedupOrder<T>(acc: seq<T>, s: seq<T>)
    requires NoDups(acc)
    ensures var r := DedupInto(acc, s);
      forall i, j :: |acc| <= i < j < |r| ==> r[i] in s && r[j] in s && IndexOf(s, r[i]) < IndexOf(s, r[j])
    decreases |s|
  {
    if |s| > 0 {
      var acc' := if s[0] in acc then acc else acc + [s[0]];
      DedupIntoFacts(acc', s[1..]);
      DedupOrder(acc', s[1..]);
      var r := DedupInto(acc', s[1..]);
      assert r[..|acc'|] == acc';
      forall k | |acc'| <= k < |r|
        ensures r[k] in s[1..] && IndexOf(s, r[k]) == 1 + IndexOf(s[1..], r[k])
      {
        forall m | 0 <= m < |acc'|
          ensures acc'[m] != r[k]
        {
          assert acc'[m] == r[m];
        }
        assert s[0] in acc';
        IndexOfTail(s, r[k]);
      }
      if |acc| < |acc'| {
        assert r[|acc|] == s[0];
      }
    }
  }

  /** Search in the tail of a sequence for a value other than its head. */
  lemma IndexOfTail<T>(s: seq<T>, x: T)
    requires |s| > 0 && s[0] != x
    ensures IndexOf(s, x) == 1 + IndexOf(s[1..], x)
  {
  }

  /** `s` without the values of `drop`, in their original order. */
  function Strip<T(==)>(s: seq<T>, drop: seq<T>): (r: seq<T>)
    ensures forall k :: 0 <= k < |r| ==> r[k] in s && r[k] !in drop
    ensures forall k :: 0 <= k < |s| && s[k] !in drop ==> s[k] in r
    ensures |r| <= |s|
  {
    if |s| == 0 then []
    else if s[0] in drop then Strip(s[1..], drop)
    else [s[0]] + Strip(s[1..], drop)
  }

  lemma {:induction false} StripAppend<T>(a: seq<T>, b: seq<T>, drop: seq<T>)
    ensures Strip(a + b, drop) == Strip(a, drop) + Strip(b, drop)
    decreases |a|
  {
    if |a| == 0 {
      assert a + b == b;
    } else {
      assert (a + b)[0] == a[0];
      assert (a + b)[1..] == a[1..] + b;
      StripAppend(a[1..], b, drop);
    }
  }

  /** Erasing one element that `Strip` drops anyway does not change its result. */
  lemma {:induction false} StripErase<T>(s: seq<T>, i: nat, drop: seq<T>)
    requires i < |s| && s[i] in drop
    ensures Strip(s[..i] + s[i + 1..], drop) == Strip(s, drop)
    decreases i
  {
    if i == 0 {
      assert s[..i] + s[i + 1..] == s[1..];
    } else {
      StripErase(s[1..], i - 1, drop);
      var t := s[..i] + s[i + 1..];
      assert t[0] == s[0];
      assert t[1..] == s[1..][..i - 1] + s[1..][i..];
    }
  }

  /** A sequence none of whose values is dropped is its own strip. */
  lemma {:induction false} StripNone<T>(s: seq<T>, drop: seq<T>)
    requires forall x :: x in s ==> x !in drop
    ensures Strip(s, drop) == s
    decreases |s|
  {
    if |s| > 0 {
      assert forall x :: x in s[1..] ==> x in s;
      StripNone(s[1..], drop);
      assert s == [s[0]] + s[1..];
    }
  }

  /** A prefix one longer is the prefix followed by the next value. */
  lemma PrefixSnoc<T>(s: seq<T>, i: nat)
    requires i < |s|
    ensures s[..i + 1] == s[..i] + [s[i]]
  {
  }
}

=== FILE: values.dfy ===
/**
 The dynamically typed `Value` carried by attributes and by the control channel,
 and the byte/string helpers the wire format needs.

 Splash's `Value` also converts between its variants (`as<float>`,
 `asString`); those conversions live in a file that is not part of this model
 and appear here only as the `Conversions` parameter.
 */
module ValueTypes {

  import Seqs

  newtype byte = x: int | 0 <= x < 256

  type Bytes = seq<byte>

  /** A value is an integer, a float, a string, or a nested ordered sequence of values. */
  datatype Value =
    | Int(i: int)
    | Float(f: real)
    | Str(s: string)
    | Vals(vs: seq<Value>)

  /** Positional arguments: an ordered sequence of values. */
  type Values = seq<Value>

  /**
   The conversions `Value` offers between its variants (`asInt`, `asFloat`,
   `asString`). Their definitions are not part of this model, so every
   operation that converts takes them as a parameter.
   */
  datatype Conversions = Conversions(asInt: Value -> int, asFloat: Value -> real, asString: Value -> string)

  /** Conversions that read a value of their own variant back unchanged. */
  ghost predicate Exact(cv: Conversions) {
    && (forall f :: cv.asFloat(Float(f)) == f)
    && (forall i :: cv.asInt(Int(i)) == i)
    && (forall s :: cv.asString(Str(s)) == s)
  }

  predicate StartsWith(s: string, prefix: string) {
    |prefix| <= |s| && s[..|prefix|] == prefix
  }

  /**
   A string that travels unchanged as a C string: every character fits in one
   byte and none is the NUL terminator.
   */
  ghost predicate IsWireText(s: string) {
    forall k :: 0 <= k < |s| ==> 0 < s[k] as int < 256
  }

  /** The bytes of a string, one per character (`std::string::c_str` without its terminator). */
  function StrBytes(s: string): (b: Bytes)
    ensures |b| == |s|
  {
    seq(|s|, k requires 0 <= k < |s| => (s[k] as int % 256) as byte)
  }

  /** The characters of `b` up to its first NUL byte, or all of `b` when it has none. */
  function CString(b: Bytes): (s: string)
    ensures |s| <= |b|
  {
    var n := Seqs.IndexOf(b, 0);
    seq(n, k requires 0 <= k < n => b[k] as int as char)
  }

  /**
   Reading back a wire text written with its NUL terminator yields the text,
   whatever follows the terminator.
   */
  lemma CStringOfStrBytes(s: string, tail: Bytes)
    requires IsWireText(s)
    ensures CString(StrBytes(s) + [0] + tail) == s
  {
    var b := StrBytes(s) + [0] + tail;
    forall k | 0 <= k < |s|
      ensures b[k] != 0 && b[k] as int as char == s[k]
    {
      assert b[k] == StrBytes(s)[k];
    }
    IndexOfFirstNul(b, |s|);
  }

  /** A byte string whose first NUL is at position `n`. */
  lemma IndexOfFirstNul(b: Bytes, n: nat)
    requires n < |b| && b[n] == 0
    requires forall k :: 0 <= k < n ==> b[k] != 0
    ensures Seqs.IndexOf(b, 0) == n
  {
  }
}

=== FILE: warp.dfy ===
/**
 A warp (src/graphics/warp.cpp): it renders its input camera onto a virtual
 screen shaped by a Bezier patch, whose control points can be shown, selected
 and picked.

 The patch mesh is a separate object; its own attribute handling is not part of
 this model and appears as the `meshAccepts` parameter.
 */
module Warp {

  import opened Wrappers
  import opened ValueTypes
  import Object
  import Seqs

  /** A camera, identified by `id`, rendering into `texture`. */
  datatype Camera = Camera(id: nat, name: string, texture: Object.TextureRef)

  /** What can be linked to a warp: a camera or anything else. */
  datatype GraphObject = CameraObject(camera: Camera) | OtherObject(name: string)

  datatype Point = Point(x: real, y: real)

  /** The Bezier patch: its attributes and its control points. */
  datatype Mesh = Mesh(attributes: map<string, Values>, controlPoints: seq<Point>)

  datatype WarpState = WarpState(
    inCamera: Option<Camera>,
    screen: Object.ObjectState,
    mesh: Option<Mesh>,
    showControlPoints: int,
    selectedControlPoint: int)

  /**
   `linkIt`: a camera replaces the input camera, and its texture replaces the
   previous camera's on the screen. Anything else is accepted and ignored; a
   missing object is refused.
   */
  function LinkIt(st: WarpState, obj: Option<GraphObject>): (r: (bool, WarpState))
    ensures r.0 <==> obj.Some?
    ensures obj.None? || obj.value.OtherObject? ==> r.1 == st
    ensures obj.Some? && obj.value.CameraObject? ==>
      var cam := obj.value.camera;
      var kept := if st.inCamera.Some? then Seqs.RemoveFirst(st.screen.textures, st.inCamera.value.texture)
                  else st.screen.textures;
      && r.1.inCamera == Some(cam)
      && r.1.screen.textures == kept + [cam.texture]
      && r.1 == st.(inCamera := Some(cam), screen := st.screen.(textures := r.1.screen.textures))
  {
    match obj
    case None => (false, st)
    case Some(OtherObject(_)) => (true, st)
    case Some(CameraObject(cam)) =>
      var screen := if st.inCamera.Some? then Object.RemoveTexture(st.screen, st.inCamera.value.texture) else st.screen;
      (true, st.(inCamera := Some(cam), screen := Object.AddTexture(screen, cam.texture)))
  }

  /** `unlinkIt`: only unlinking the input camera itself clears the slot and its texture. */
  function UnlinkIt(st: WarpState, obj: GraphObject): (st': WarpState)
    ensures !(obj.CameraObject? && st.inCamera == Some(obj.camera)) ==> st' == st
    ensures obj.CameraObject? && st.inCamera == Some(obj.camera) ==>
      && st'.inCamera.None?
      && st'.screen.textures == Seqs.RemoveFirst(st.screen.textures, obj.camera.texture)
      && st' == st.(inCamera := None, screen := st.screen.(textures := st'.screen.textures))
  {
    if obj.CameraObject? && st.inCamera == Some(obj.camera) then
      st.(inCamera := None, screen := Object.RemoveTexture(st.screen, obj.camera.texture))
    else st
  }

  /**
   Linking a camera to a warp without one and unlinking it again restores the
   warp, provided the screen did not already show that camera's texture.
   */
  lemma LinkThenUnlink(st: WarpState, cam: Camera)
    requires st.inCamera.None? && cam.texture !in st.screen.textures
    ensures UnlinkIt(LinkIt(st, Some(CameraObject(cam))).1, CameraObject(cam)) == st
  {
    RemoveAppended(st.screen.textures, cam.texture);
  }

  lemma RemoveAppended(ts: seq<Object.TextureRef>, t: Object.TextureRef)
    requires t !in ts
    ensures Seqs.RemoveFirst(ts + [t], t) == ts
  {
    var s := ts + [t];
    var i := Seqs.IndexOf(s, t);
    assert s[|ts|] == t;
    assert forall j :: 0 <= j < |ts| ==> s[j] == ts[j];
    assert i == |ts|;
    assert s[..i] == ts && s[i + 1..] == [];
  }

  /** Linking a second camera keeps exactly one camera texture on the screen. */
  lemma LinkReplacesCamera(st: WarpState, a: Camera, b: Camera)
    requires st.inCamera.None? && a.texture !in st.screen.textures
    ensures var st' := LinkIt(LinkIt(st, Some(CameraObject(a))).1, Some(CameraObject(b))).1;
      st'.inCamera == Some(b) && st'.screen.textures == st.screen.textures + [b.texture]
  {
    RemoveAppended(st.screen.textures, a.texture);
  }

  /**
   Forwards an attribute to the patch mesh. Without a mesh it fails; with one,
   the mesh decides, and keeps the values when it accepts them.
   */
  function SetMeshAttribute(st: WarpState, attr: string, args: Values, meshAccepts: (string, Values) -> bool): (r: (bool, WarpState))
    ensures st.mesh.None? ==> r == (false, st)
    ensures st.mesh.Some? ==> r.0 == meshAccepts(attr, args)
    ensures r.0 ==> r.1.mesh.Some? && r.1.mesh.value.attributes == st.mesh.value.attributes[attr := args]
    ensures r.0 ==> r.1 == st.(mesh := r.1.mesh) && r.1.mesh.value.controlPoints == st.mesh.value.controlPoints
    ensures !r.0 ==> r.1 == st
  {
    if st.mesh.None? then (false, st)
    else if !meshAccepts(attr, args) then (false, st)
    else
      var m := st.mesh.value;
      (true, st.(mesh := Some(m.(attributes := m.attributes[attr := args]))))
  }

  /** Reads an attribute of the patch mesh; nothing without a mesh. */
  function GetMeshAttribute(st: WarpState, attr: string): (r: Values)
    ensures st.mesh.None? ==> r == []
  {
    if st.mesh.Some? && attr in st.mesh.value.attributes then st.mesh.value.attributes[attr] else []
  }

  function Min8(n: int): (r: int)
    ensures r <= 8 && (r == n || r == 8)
    ensures n <= 8 ==> r == n
  {
    if n < 8 then n else 8
  }

  /** `patchSize`: each of the two dimensions capped at 8 before it reaches the mesh. */
  function SetPatchSize(st: WarpState, args: Values, cv: Conversions, meshAccepts: (string, Values) -> bool): (r: (bool, WarpState))
    requires |args| >= 2
    ensures st.mesh.None? ==> r == (false, st)
    ensures st.mesh.Some? ==>
      r.0 == meshAccepts("patchSize", [Int(Min8(cv.asInt(args[0]))), Int(Min8(cv.asInt(args[1])))])
    ensures !r.0 ==> r.1 == st
    ensures r.0 ==> r.1.mesh.Some? && "patchSize" in r.1.mesh.value.attributes
    ensures r.0 ==> var size := r.1.mesh.value.attributes["patchSize"];
      && |size| == 2 && size[0].Int? && size[1].Int?
      && size[0].i <= 8 && size[1].i <= 8
      && (cv.asInt(args[0]) <= 8 ==> size[0].i == cv.asInt(args[0]))
      && (cv.asInt(args[1]) <= 8 ==> size[1].i == cv.asInt(args[1]))
  {
    SetMeshAttribute(st, "patchSize", [Int(Min8(cv.asInt(args[0]))), Int(Min8(cv.asInt(args[1])))], meshAccepts)
  }

  /**
   With a mesh that accepts them, patch control and resolution read back what
   was set and the patch size reads back capped at 8; without a mesh all three
   patch attributes fail and read back empty.
   */
  lemma PatchAttributesRoundTrip(st: WarpState, args: Values, cv: Conversions, meshAccepts: (string, Values) -> bool)
    requires |args| >= 2
    ensures st.mesh.Some? && meshAccepts("patchControl", args) ==>
      GetMeshAttribute(SetMeshAttribute(st, "patchControl", args, meshAccepts).1, "patchControl") == args
    ensures st.mesh.Some? && meshAccepts("patchResolution", args) ==>
      GetMeshAttribute(SetMeshAttribute(st, "patchResolution", args, meshAccepts).1, "patchResolution") == args
    ensures var size := [Int(Min8(cv.asInt(args[0]))), Int(Min8(cv.asInt(args[1])))];
      st.mesh.Some? && meshAccepts("patchSize", size) ==>
        GetMeshAttribute(SetPatchSize(st, args, cv, meshAccepts).1, "patchSize") == size
    ensures st.mesh.None? ==>
      && !SetMeshAttribute(st, "patchControl", args, meshAccepts).0
      && !SetMeshAttribute(st, "patchResolution", args, meshAccepts).0
      && !SetPatchSize(st, args, cv, meshAccepts).0
      && GetMeshAttribute(st, "patchSize") == []
  {
  }

  /** `showControlLattice`: hiding the lattice also drops the selected control point. */
  function ShowControlLattice(st: WarpState, args: Values, cv: Conversions): (r: (bool, WarpState))
    requires |args| >= 1
    ensures r.0
    ensures r.1.showControlPoints == cv.asInt(args[0])
    ensures cv.asInt(args[0]) == 0 ==> r.1.selectedControlPoint == -1
    ensures cv.asInt(args[0]) != 0 ==> r.1.selectedControlPoint == st.selectedControlPoint
    ensures r.1 == st.(showControlPoints := r.1.showControlPoints, selectedControlPoint := r.1.selectedControlPoint)
  {
    var show := cv.asInt(args[0]);
    (true, st.(showControlPoints := show, selectedControlPoint := if show == 0 then -1 else st.selectedControlPoint))
  }

  /** `showControlPoint`: selects the point of that index, or none when the index is out of range. */
  function ShowControlPoint(st: WarpState, args: Values, cv: Conversions): (r: (bool, WarpState))
    requires |args| >= 1 && st.mesh.Some?
    ensures r.0
    ensures var i := cv.asInt(args[0]);
      r.1.selectedControlPoint == if 0 <= i < |st.mesh.value.controlPoints| then i else -1
    ensures r.1 == st.(selectedControlPoint := r.1.selectedControlPoint)
  {
    var index := cv.asInt(args[0]);
    var count := |st.mesh.value.controlPoints|;
    (true, st.(selectedControlPoint := if index < 0 || index >= count then -1 else index))
  }

  /**
   The selected control point, when there is one, always names an existing
   point, and hiding the lattice afterwards drops it.
   */
  lemma SelectionInRange(st: WarpState, args: Values, cv: Conversions)
    requires |args| >= 1 && st.mesh.Some?
    ensures var s := ShowControlPoint(st, args, cv).1.selectedControlPoint;
      s == -1 || 0 <= s < |st.mesh.value.controlPoints|
    ensures forall off :: |off| >= 1 && cv.asInt(off[0]) == 0 ==>
      ShowControlLattice(ShowControlPoint(st, args, cv).1, off, cv).1.selectedControlPoint == -1
  {
  }

  /** The largest finite single-precision float, the starting distance of a pick. */
  const FloatMax: real := 340282346638528859811704183484516925440.0

  /**
   `pickControlPoint`: the first control point nearest to `p` by `dist`, with its
   index; index -1 and no point when there are none (or all are at least
   `FloatMax` away).
   */
  method PickControlPoint(p: Point, points: seq<Point>, dist: (Point, Point) -> real) returns (index: int, picked: Option<Point>)
    ensures -1 <= index < |points|
    ensures index == -1 <==> forall k :: 0 <= k < |points| ==> dist(p, points[k]) >= FloatMax
    ensures index == -1 <==> picked.None?
    ensures index >= 0 ==>
      && picked == Some(points[index])
      && dist(p, points[index]) < FloatMax
      && (forall k :: 0 <= k < index ==> dist(p, points[k]) > dist(p, points[index]))
      && (forall k :: index < k < |points| ==> dist(p, points[k]) >= dist(p, points[index]))
  {
    var distance := FloatMax;
    index := -1;
    picked := None;
    var i := 0;
    while i < |points|
      invariant 0 <= i <= |points|
      invariant -1 <= index < i
      invariant index == -1 <==> picked.None?
      invariant index == -1 ==> distance == FloatMax && forall k :: 0 <= k < i ==> dist(p, points[k]) >= FloatMax
      invariant index >= 0 ==>
        && picked == Some(points[index]) && distance == dist(p, points[index]) && distance < FloatMax
        && (forall k :: 0 <= k < index ==> dist(p, points[k]) > distance)
        && (forall k :: index < k < i ==> dist(p, points[k]) >= distance)
    {
      var d := dist(p, points[i]);
      if d < distance {
        picked := Some(points[i]);
        distance := d;
        index := i;
      }
      i := i + 1;
    }
  }
}

=== FILE: wrappers.dfy ===
/** Optional values, used for lookups that may miss and decodes that may fail. */
module Wrappers {

  datatype Option<+T> = None | Some(value: T) {

    /** The carried value, or `default` when there is none. */
    function GetOr(default: T): T {
      match this
      case Some(v) => v
      case None => default
    }
  }
}
